=== FILE: README.md ===
# Poker league ledger — a Dafny model

This project models the player ledger of a poker league's GraphQL back end.

A **player** document has:

- a profile: name, handle, `isRegular`, `isShowInRating`;
- an ordered list of `{game, result}` entries;
- four cached statistics:
  - `balance`, the sum of the results;
  - `gameCount`, the number of entries;
  - `maxSeriesOfWin` and `maxSeriesOfLoose`, the longest win and loss streaks.

A **game** document has a name, a date, a roster of player ids paired positionally with results, a buy-in and a big-game flag.

The model covers these resolver operations:

- `saveGameResult` overwrites the game and then upserts one result per roster position into each player's list. It recomputes all four statistics.
- `deleteGame` removes the game, filters it out of each roster player's list, and recomputes only `balance` and `gameCount`.
- `createGame` rejects a name already in use.
- `getAllGames` does the page arithmetic.
- `createPlayer` enforces handle uniqueness, for a create and for an update.
- `getAllPlayers` orders players by a sort key.
- `getPlayerByHandle` sorts a player's results by game date, newest first.
- `playerHistory` builds the cumulative-balance series over the results sorted oldest first.

The older revision of the game resolver (`resolvers/gameResolver.js`) is modelled where it differs: its streak maximum has no empty-list guard.

Modules:

- `Ledger`: entries, `Sum`, the upsert, the game filter.
- `Streaks`: the two counter folds, their samples and the guarded maximum, proved against an independent "longest unbroken run" characterisation.
- `Players`: the `Player` class. `ApplyResult` and `RemoveGame` update it in place.
- `Legacy`: the older revision. An absent statistic stands for `-Infinity`.
- `Names`: JavaScript `trim` and the two names used by `createGame`.
- `Pagination`: `getAllGames`.
- `Directory`:
  - the handle rule;
  - the player order;
  - an in-place insertion sort by date;
  - the history series.
- `Store`: a `Store` class holding a map of games and a map of `Player` objects. `SaveGameResult` and `DeleteGame` loop over the roster, and their postconditions give each player's whole new state as a function of its old state (`Saved`, `Removed`).

A zero result neither extends nor breaks a streak: it leaves the counter unchanged (`src/resolvers/gameResolver.js:136-147`). So results `[10, 0, 10]` give a win streak of 2, not 1; see `Streaks.ZeroExample`.

## Model

| member | source | states |
|---|---|---|
| Ledger.SumAppend | src/resolvers/gameResolver.js:130 | The balance fold is additive over concatenation. |
| Ledger.Sum | src/resolvers/gameResolver.js:130 | Definition: the left-to-right sum of the results, which `balance` must equal. |
| Ledger.Upsert | src/resolvers/gameResolver.js:120-128 | Definition: the first entry for the game gets the new result. With none, the entry is appended. |
| Ledger.WithoutGame | src/resolvers/gameResolver.js:206 | Definition: the entries whose game differs, in their order. |
| Ledger.FindIndex | src/resolvers/gameResolver.js:120-122 | Gives -1 exactly when no entry has the game. Otherwise gives the first matching position. |
| Ledger.UpsertOverwrites | src/resolvers/gameResolver.js:120-125 | When the first entry for the game is at `i`, only entry `i` is replaced, by `(g, r)`. The length is unchanged. |
| Ledger.UpsertAppends | src/resolvers/gameResolver.js:124-128 | With no entry for the game, one entry `(g, r)` is appended at the end. Everything before it is untouched. |
| Ledger.UpsertByIndex | src/resolvers/gameResolver.js:120-128 | The upsert is an index write at `findIndex` when that is >= 0, and a push otherwise. |
| Ledger.UpsertFirstMatch | src/resolvers/gameResolver.js:120-128 | After an upsert, the first entry for the game carries the new result. |
| Ledger.UpsertLastWins | src/resolvers/gameResolver.js:120-128 | Upserting `a` and then `b` for one game equals upserting `b` alone. |
| Ledger.UpsertSum | src/resolvers/gameResolver.js:124-130 | The new balance is the old one minus the overwritten result plus `r`. Without an old entry it is the old balance plus `r`. |
| Ledger.WithoutGameAppend | src/resolvers/gameResolver.js:206 | The filter distributes over concatenation. |
| Ledger.WithoutGameSingle | src/resolvers/gameResolver.js:206 | The filter keeps a single entry exactly when its game differs. |
| Ledger.WithoutGameExact | src/resolvers/gameResolver.js:206-207 | After the delete no entry has the game, every other entry is kept, and nothing is added. |
| Ledger.WithoutAbsentGame | src/resolvers/gameResolver.js:206-207 | Deleting a game the player never played leaves the list unchanged. |
| Ledger.WithoutGameIdempotent | src/resolvers/gameResolver.js:206-207 | Deleting the same game twice is deleting it once. |
| Ledger.UpsertThenDelete | src/resolvers/gameResolver.js:120-128 | Saving a new game and then deleting it restores the list. |
| Streaks.Counter | src/resolvers/gameResolver.js:133-160 | Definition: the fold's counter after the whole list. A result of the streak's sign increments it, one of the opposite sign resets it to 0, and a zero leaves it. |
| Streaks.Samples | src/resolvers/gameResolver.js:136-160 | Definition: the counter values pushed after each result of the streak's sign, in order. |
| Streaks.Streak | src/resolvers/gameResolver.js:162-164 | Definition: the stored statistic, the guarded maximum of the samples. |
| Streaks.Max | src/resolvers/gameResolver.js:7-9 | The maximum of a non-empty sample list is one of its elements and bounds all of them. |
| Streaks.MaxOrZero | src/resolvers/gameResolver.js:162-164 | Gives 0 for no samples. Otherwise gives the largest sample, which belongs to the list. |
| Streaks.CollectSamples | src/resolvers/gameResolver.js:133-160 | The counter loop with the pushed array returns exactly the fold's samples, for either direction. |
| Streaks.CountExtendsZero | src/resolvers/gameResolver.js:136-147 | No result extends the streak exactly when none has the streak's sign. |
| Streaks.SamplesBounds | src/resolvers/gameResolver.js:136-147 | One sample per result of the streak's sign. Each sample, and the final counter, lies between 1 and that count. |
| Streaks.StreakZeroIff | src/resolvers/gameResolver.js:133-164 | The statistic is 0 exactly when no result has the streak's sign. |
| Streaks.StreakAtMostCount | src/resolvers/gameResolver.js:133-164 | The statistic never exceeds the number of results of the streak's sign. |
| Streaks.CounterDominatesSuffix | src/resolvers/gameResolver.js:136-147 | The counter is at least the number of extending results in any suffix with no breaking result. |
| Streaks.CounterAttained | src/resolvers/gameResolver.js:136-147 | The counter equals the count of extending results in some suffix with no breaking result. |
| Streaks.CounterIsSample | src/resolvers/gameResolver.js:136-147 | At every result of the streak's sign, the running counter is recorded as a sample. |
| Streaks.SampleIsCounter | src/resolvers/gameResolver.js:136-147 | Every sample is the running counter at some result of the streak's sign. |
| Streaks.SegmentAtMostStreak | src/resolvers/gameResolver.js:133-164 | No stretch without a breaking result holds more extending results than the statistic. |
| Streaks.StreakAttained | src/resolvers/gameResolver.js:133-164 | Some stretch without a breaking result holds exactly as many extending results as the statistic. |
| Streaks.Negated | src/resolvers/gameResolver.js:149-160 | Definition: the results with every sign flipped, game ids kept. |
| Streaks.WinMirrorsLoss | src/resolvers/gameResolver.js:136-160 | Negating twice gives the results back. The win fold (counter, samples and statistic) is the loss fold over the negated results. |
| Streaks.LossMirrorsWin | src/resolvers/gameResolver.js:149-160 | The loss fold (counter, samples and statistic) is the win fold over the negated results. |
| Streaks.FoldStep | src/resolvers/gameResolver.js:136-147 | One step of the fold: increment and record on the streak's sign, reset on the opposite sign, nothing on zero. |
| Streaks.MixedExampleWins | src/resolvers/gameResolver.js:133-164 | `[100, 50, -20, 30, 30, -10, -10, -10]` gives a win streak of 2. |
| Streaks.MixedExampleLosses | src/resolvers/gameResolver.js:133-164 | The same results give a loss streak of 3. |
| Streaks.ZeroExample | src/resolvers/gameResolver.js:136-147 | `[10, 0, 10]` gives a win streak of 2, because zero neither extends nor breaks a streak. |
| Players.Player.constructor | models/playerModel.js:14-48 | A new player has the given profile, no results, and every statistic at its default of 0. All four statistics agree with the empty list. |
| Players.Player.UpdateProfile | src/resolvers/playerResolver.js:145-150 | Overwrites exactly name, handle, `isRegular` and `isShowInRating`. |
| Players.Player.ApplyResult | src/resolvers/gameResolver.js:120-164 | The list becomes the upsert of the old list. Balance, game count and both streaks all agree with the new list. |
| Players.Player.Recompute | src/resolvers/gameResolver.js:130-164 | Balance is the sum and game count the length. Both streak fields are the guarded maxima of the folds. |
| Players.Player.RemoveGame | src/resolvers/gameResolver.js:206-209 | The list loses exactly the game's entries. Balance and game count are recomputed. Both streak fields keep their old values. |
| Players.ApplyTwiceSameAsOnce | src/resolvers/gameResolver.js:120-164 | Applying the same `(game, result)` twice leaves the list, sum and both streaks as after one application. |
| Legacy.LegacyMax | resolvers/gameResolver.js:145-146 | The unguarded `max()` is absent (`-Infinity`) exactly for no samples. Otherwise it is the guarded maximum. |
| Legacy.LegacyStreakAgrees | resolvers/gameResolver.js:116-146 | The legacy statistic is absent exactly when no result has the streak's sign. Otherwise it equals the current one. |
| Legacy.LegacyLossOnlyHasNoWinStreak | resolvers/gameResolver.js:119-145 | A single lost game gives the legacy win statistic `-Infinity`, where the current revision gives 0. |
| Legacy.LegacyPlayer.constructor | models/playerModel.js:14-40 | A new legacy player has no results, consistent totals, and both streaks at 0. |
| Legacy.LegacyPlayer.ApplyResult | resolvers/gameResolver.js:104-146 | The list becomes the upsert of the old list. The totals agree with it. The streaks are the unguarded maxima of the samples. |
| Legacy.LegacyPlayer.Recompute | resolvers/gameResolver.js:113-146 | Recomputes the totals and both unguarded maxima from the list. |
| Legacy.LegacyPlayer.RemoveGame | resolvers/gameResolver.js:192-195 | Filters out the game, recomputes the totals and keeps both streaks. |
| Names.IsJsSpace | src/resolvers/gameResolver.js:73 | Definition: the characters `trim()` removes, ECMAScript white space and line terminators. |
| Names.Leading | src/resolvers/gameResolver.js:73 | The length of the white-space run at the start of the name. |
| Names.Trailing | src/resolvers/gameResolver.js:73 | The length of the white-space run at the end of the name. |
| Names.Trim | src/resolvers/gameResolver.js:73 | `trim()` has no white space at either end, is empty exactly for all-white-space input, and is the input without its leading and trailing runs. |
| Names.TrimIdempotent | src/resolvers/gameResolver.js:73 | Trimming twice is trimming once. |
| Names.LookupName | src/resolvers/gameResolver.js:73 | Definition: the name checked for a conflict, the trimmed name or, when none is given, the date string of the first clock read. |
| Names.StoredName | src/resolvers/gameResolver.js:82 | Definition: the name stored, the name as given (untrimmed) or, when none is given, the date string of a second clock read. |
| Names.LookupNameIsTrimmed | src/resolvers/gameResolver.js:73 | When a name is given, the name checked for a conflict (`LookupName`) is already trimmed: trimming it again changes nothing. |
| Names.StoredDiffersFromLookup | src/resolvers/gameResolver.js:73-82 | The stored and looked-up names differ exactly in two cases. Either a given name has white space at either end, or no name is given and the two clock reads fall on different days. |
| Pagination.Skip | src/resolvers/gameResolver.js:13 | Definition: `page * limit - limit`, the number of games before the requested page. |
| Pagination.FailsExactlyBelowFirstPage | src/resolvers/gameResolver.js:12-28 | With a positive limit, the query fails (a negative `skip`) exactly for a page below 1. |
| Pagination.PageCount | src/resolvers/gameResolver.js:34 | `ceil(itemCount / limit)` is the least page count whose pages hold every game. |
| Pagination.GetAllGames | src/resolvers/gameResolver.js:12-44 | Uses the defaults 10 and 1. Fails exactly on a negative skip. Otherwise gives the item count, the page count and `has_more` iff `page < pageCount`, and the page is the slice of games starting at the skip, cut to at most `limit`. |
| Pagination.GameOnItsPage | src/resolvers/gameResolver.js:12-44 | Every game appears on page `index / limit + 1`, within the page count, at position `index % limit`. |
| Pagination.HasMoreMeansNextPage | src/resolvers/gameResolver.js:12-44 | Every page before the last is answered with `has_more`, is full, and the next page is not empty (with `GetAllGames`, `has_more` holds exactly then). |
| Directory.StrLess | src/resolvers/playerResolver.js:47 | Definition: the binary name order. The first differing character decides, and a proper prefix comes first. |
| Directory.Before | src/resolvers/playerResolver.js:46-47 | Definition: the `getAllPlayers` order. The larger chosen stat comes first, then regulars, then the smaller name. |
| Directory.HandleRejected | src/resolvers/playerResolver.js:128-143 | Definition: `createPlayer`'s test on the player found by handle. A create is refused when there is one. An update is refused when it is a different player. |
| Directory.HandleRejectedIff | src/resolvers/playerResolver.js:128-143 | `HandleRejected`, the test on the player found by handle, under unique handles: a create is refused iff some player has the handle, and an update iff some other player has it. |
| Directory.StrLessIrreflexive | src/resolvers/playerResolver.js:47 | The name order is irreflexive. |
| Directory.StrLessTransitive | src/resolvers/playerResolver.js:47 | The name order is transitive. |
| Directory.StrLessTotal | src/resolvers/playerResolver.js:47 | Any two different names are ordered. |
| Directory.BeforeIsStrictTotal | src/resolvers/playerResolver.js:46-47 | The player order is a strict order. Players it leaves unordered agree on the sort stat, `isRegular` and name. |
| Directory.PlayerOrderKeys | src/resolvers/playerResolver.js:46-47 | In that order the chosen stat never increases. Without `sortBy`, regulars come first. |
| Directory.SortByDate | src/resolvers/playerResolver.js:18 | Sorting in place by game date gives a date-ordered permutation, ascending or descending. |
| Directory.InsertAt | src/resolvers/playerResolver.js:18 | One insertion step extends the date-ordered prefix by one and keeps the multiset. |
| Directory.Swap | src/resolvers/playerResolver.js:18 | Exchanges two neighbours and keeps the multiset. |
| Directory.Entries | src/resolvers/playerResolver.js:86-94 | Definition: populated results stripped back to their `{game, result}` entries. |
| Directory.History | src/resolvers/playerResolver.js:21-31 | One point per sorted result. Point `i` has the sum of the first `i + 1` results, that result's date, and the player's name. |
| Directory.SumWithout | src/resolvers/playerResolver.js:23-31 | Removing one result from the list lowers the sum by exactly that result. |
| Directory.MultisetWithout | src/resolvers/playerResolver.js:18 | Removing the same element from two permutations leaves permutations. |
| Directory.SumPermutation | src/resolvers/playerResolver.js:18-31 | Sorting does not change the sum of the results. |
| Directory.HistoryEndsAtBalance | src/resolvers/playerResolver.js:18-31 | The last history point is the sum of all the player's results. |
| Store.LastResult | src/resolvers/gameResolver.js:112-128 | Definition: the result the roster gives a player, the one at the last position naming it. |
| Store.Saved | src/resolvers/gameResolver.js:112-164 | Definition: a player document after a save. With a result, the list is upserted and all four statistics are recomputed. Without one, it is unchanged. |
| Store.Removed | src/resolvers/gameResolver.js:204-209 | Definition: a player document after a delete. On the roster, the game is filtered out and balance and game count are recomputed, with the streaks kept. Off it, it is unchanged. |
| Store.LastResultIsLast | src/resolvers/gameResolver.js:112-128 | A player gets no result exactly when off the roster. Otherwise gets the result at the last roster position naming it. |
| Store.LastResultStep | src/resolvers/gameResolver.js:112-128 | One more roster position overrides the earlier result of the player it names. |
| Store.NameInUse | src/resolvers/gameResolver.js:75-77 | Definition: `Game.findOne({ name })` finds a game, meaning some stored game has exactly that name. |
| Store.Populate | src/resolvers/playerResolver.js:86-94 | Fails exactly when some entry's game no longer exists. Otherwise keeps the entries in order, each with its game's date. |
| Store.SavedTwice | src/resolvers/gameResolver.js:112-164 | A later roster position for the same player overrides an earlier one: only the last save of a game counts. |
| Store.RemovedTwice | src/resolvers/gameResolver.js:204-209 | A player listed twice on the roster is filtered once. |
| Store.Store.SaveGameResult | src/resolvers/gameResolver.js:93-174 | Missing id → error, unknown game → error, both leaving everything unchanged. Otherwise the game gets the new roster, results, name and date, and every player's new state is `Saved` of its old state with its last roster result. Players off the roster are unchanged. |
| Store.Store.SaveStep | src/resolvers/gameResolver.js:112-166 | Processing roster position `i` moves every player from "first `i` positions saved" to "first `i + 1` positions saved". |
| Store.Store.SaveForPlayer | src/resolvers/gameResolver.js:113-166 | Saves one result for one player document. Every other player is unchanged. |
| Store.Store.DeleteGame | src/resolvers/gameResolver.js:193-216 | Unknown game → error and no change. Otherwise the game is removed and every roster player's state is `Removed` of its old state: list filtered, totals recomputed, streaks kept. Other players are unchanged. |
| Store.Store.RemoveStep | src/resolvers/gameResolver.js:204-211 | Processing roster position `i` extends the set of filtered players by that id. |
| Store.Store.RemoveFromPlayer | src/resolvers/gameResolver.js:205-211 | Filters one player document. Every other player is unchanged. |
| Store.Store.CreateGame | src/resolvers/gameResolver.js:70-91 | Rejects iff a game has the looked-up name (first clock read). Otherwise adds a game with the untrimmed stored name (second clock read), the roster, no results and a buy-in defaulting to 500. |
| Store.Store.FindByHandle | src/resolvers/playerResolver.js:128 | Finds a player holding the handle exactly when one exists. |
| Store.Store.CreatePlayer | src/resolvers/playerResolver.js:124-155 | Enforces the handle rule in both directions. A create adds a fresh player with the profile and zero statistics. An update overwrites only that player's profile. No ledger of any other player changes, and the games are untouched. |
| Store.Store.AddPlayer | src/resolvers/playerResolver.js:134-137 | Adds one fresh player document with zero statistics. Existing players are unchanged. |
| Store.Store.UpdatePlayer | src/resolvers/playerResolver.js:145-153 | Overwrites one player's profile and nothing else. |
| Store.Store.GetPlayerByHandle | src/resolvers/playerResolver.js:80-102 | "Not found" iff no player has the handle. Succeeds iff the handle's player exists and every game of its results still exists. Then it returns that player's populated results as a permutation, newest first. |
| Store.Store.PlayerHistory | src/resolvers/playerResolver.js:5-35 | "Not found" iff no player has the handle. Succeeds iff that player's games all still exist. Then the answer is `HistoryOf` that player: prefix sums over a date-ascending permutation of its own populated results, each point with its date and the player's name, the last equal to its balance. |
| Store.Store.PointsOf | src/resolvers/playerResolver.js:17-34 | For one player document: fails exactly when a result's game is gone. Otherwise gives `HistoryOf` the player over a date-ascending permutation of its populated results. |
| Store.Store.HistoryOf | src/resolvers/playerResolver.js:18-31 | Definition: the series is one point per result, over a date-ascending permutation of the player's populated results. Point `i` holds the sum of the first `i + 1`, that result's date and the player's name, and the last point is the balance. |
| Store.UntrimmedNameDoesNotBlockTrimmed | src/resolvers/gameResolver.js:73-89 | After creating a game whose name has white space at an end, its trimmed name is still free, so a second game with that name is accepted. |

## Left out

- Identities are taken in canonical form, the lower-case hex `toString()` of an ObjectId, and compared by equality. The source casts an id argument to an ObjectId for every lookup (`findById`, `findByIdAndUpdate`, `findByIdAndRemove`), so any other spelling of the same hex id finds the same document. The model does not cover such spellings.
- Store.Store.DeleteGame: the source filters players' entries by comparing each stored game id's `toString()` with the raw `gameId` argument (`src/resolvers/gameResolver.js:206`). With a non-canonical spelling, such as upper-case hex, the game is removed but every player keeps its entry for it. The model assumes the canonical spelling, so the filter always matches.
- Store.Store.CreatePlayer: the source compares the handle holder's `id` with the raw `id` argument (`src/resolvers/playerResolver.js:141`). With a non-canonical spelling, an update that keeps the player's own handle is refused. The model assumes the canonical spelling, where such an update is accepted (`Directory.HandleRejectedIff`).
- Persistence (`findById`, `findByIdAndUpdate`, `populate`, `save`, `count`) is replaced by an in-memory store. Database identities (`newId`) are parameters. The two clock reads of `createGame` (`lookupDay`, `storedDay`) are also parameters, so they may differ, as across midnight.
- The per-player updates of `saveGameResult` and `deleteGame` run as unawaited promises. They are modelled as a sequential loop over the roster, so interleavings are not modelled.
- Store.Store.SaveGameResult: requires `|ids| <= |rs|`. With fewer results than roster ids the source stores `undefined` and the sums become `NaN`, which is not modelled. Surplus results are accepted: they are stored with the game and paired with no player, as in the source.
- Store.Store.SaveGameResult: an unknown game id makes the source fail with a `TypeError` on `game.save()`. The model returns `GameNotFound` and changes nothing.
- The re-read of the game after saving, with nested `populate`, is not modelled. The returned game is the stored one.
- Store.Store.SaveGameResult: a roster id with no player document makes the source fail inside its promise. The model skips that id, and the same holds for Store.Store.DeleteGame.
- Date parsing and formatting (`new Date`, the `DD.MM.YYYY` rewrite, `moment().format`, `toDateString`) are left out. Dates are plain integers, and name and date are parameters.
- Store.Store.PlayerHistory: history points carry the integer date, not the formatted date string.
- `express-paginate` `getArrayPages` (the `pages` field) is left out.
- Pagination.GetAllGames: requires `limit > 0`. A zero limit gives `Infinity` or `NaN` page counts in JavaScript. A non-integer page or limit is not modelled.
- Populate (the database join) is modelled by a map lookup over the game list. The sort by date of `getAllGames` is not modelled: the games are taken as already sorted.
- `getAllPlayers` is modelled as its comparator only (`Directory.Before`). The database sort itself is not modelled.
- Directory.StrLess: names are ordered by Unicode code point, character by character, which is MongoDB's default binary order. Collation options do not exist in the source.
- Store.Store.PlayerHistory: an unknown handle makes the source fail with a `TypeError`. The model answers `PlayerNotFound`.
- Store.Store.GetPlayerByHandle: when an entry's game is gone, the model answers `GameMissingForEntry`. With a single entry the source does not call the comparator and returns the entry with a null game.
- Store.Store.CreatePlayer: absent booleans on create take the schema defaults (`isRegular` false, `isShowInRating` true). On update an absent boolean is passed to `findByIdAndUpdate` as `undefined`, and what is stored then depends on the Mongoose version. The model takes both booleans as given.
- Store.Store.CreatePlayer: schema validation of required `name` and `handle` is not modelled.
- `getGame`, `getGameCount`, `getPlayer` and `getPlayersHistory` are plain database reads or an async concatenation of `playerHistory`, and are not modelled.
- Authentication (`checkIsAdmin`, `checkIsAuth`, bcrypt, JWT) and the GraphQL wiring are left out.
- In the older revision, `createGame`, the missing-id check of `saveGameResult` and the lookup of `deleteGame` match the current revision. They are modelled once, by the `Store` members.

## Findings

| source | as written | input that shows it | evidently intended | confidence | as-written member | corrected member |
|---|---|---|---|---|---|---|
| resolvers/gameResolver.js:145-146 | `maxSeriesOfWin = seriesOfWinsArray.max()` with no empty-list guard, and the same for losses | a player whose only result is `-10`: no win samples, so `Math.max()` gives `-Infinity` for the win streak | 0 when there are no samples, as the current revision does (`src/resolvers/gameResolver.js:162-164`) | high, not executed | Legacy.LegacyMax, Legacy.LegacyLossOnlyHasNoWinStreak | Streaks.MaxOrZero |

=== FILE: directory.dfy ===
/**
 * The player resolver's decision logic: the handle-uniqueness rule of
 * `createPlayer`, the ordering of `getAllPlayers`, the date sort of
 * `getPlayerByHandle` and `playerHistory`, and the cumulative-balance series.
 */
module Directory {
  import opened Wrappers
  import opened Ledger

  // ---------------------------------------------------------------------
  // createPlayer: handle uniqueness

  /** Whether no two players hold the same handle. */
  ghost predicate HandlesUnique(handles: map<PlayerId, string>)
  {
    forall a, b :: a in handles && b in handles && a != b ==> handles[a] != handles[b]
  }

  /**
   * `createPlayer`'s test on the player `findOne({ handle })` returned
   * (`holder`): creating (`id` absent, the empty string) fails when there is
   * a holder; updating fails when the holder is a different player.
   */
  function HandleRejected(holder: Option<PlayerId>, id: PlayerId): bool
  {
    if id == "" then holder.Some? else holder.Some? && holder.value != id
  }

  /**
   * With unique handles, the decision is the documented rule: a create is
   * rejected iff some player has the handle, an update iff some OTHER player
   * has it; keeping one's own handle is accepted.
   */
  lemma HandleRejectedIff(handles: map<PlayerId, string>, handle: string, holder: Option<PlayerId>, id: PlayerId)
    requires HandlesUnique(handles)
    requires holder.None? <==> forall k :: k in handles ==> handles[k] != handle
    requires holder.Some? ==> holder.value in handles && handles[holder.value] == handle
    ensures id == "" ==> (HandleRejected(holder, id) <==> exists k :: k in handles && handles[k] == handle)
    ensures id != "" ==> (HandleRejected(holder, id) <==> exists k :: k in handles && k != id && handles[k] == handle)
  {
    if id != "" && holder.Some? && holder.value == id {
      forall k | k in handles && k != id ensures handles[k] != handle {
        assert handles[id] == handle;
      }
    }
  }

  // ---------------------------------------------------------------------
  // getAllPlayers: sort key

  /** The closed set of fields `sortBy` may name. */
  datatype SortKey = Balance | GameCount | MaxSeriesOfWin | MaxSeriesOfLoose

  /** What the player ordering looks at. */
  datatype Standing = Standing(name: string, isRegular: bool, balance: int, gameCount: int,
                               maxSeriesOfWin: int, maxSeriesOfLoose: int)

  function Stat(key: SortKey, p: Standing): int
  {
    match key
    case Balance => p.balance
    case GameCount => p.gameCount
    case MaxSeriesOfWin => p.maxSeriesOfWin
    case MaxSeriesOfLoose => p.maxSeriesOfLoose
  }

  /** Binary string order: the first differing character decides, a proper prefix comes first. */
  predicate StrLess(a: string, b: string)
  {
    if a == [] then b != []
    else if b == [] then false
    else if a[0] != b[0] then a[0] < b[0]
    else StrLess(a[1..], b[1..])
  }

  lemma {:induction false} StrLessIrreflexive(a: string)
    ensures !StrLess(a, a)
  {
    if a != [] {
      StrLessIrreflexive(a[1..]);
    }
  }

  lemma {:induction false} StrLessTransitive(a: string, b: string, c: string)
    requires StrLess(a, b) && StrLess(b, c)
    ensures StrLess(a, c)
  {
    if a != [] && b != [] && c != [] && a[0] == b[0] && b[0] == c[0] {
      StrLessTransitive(a[1..], b[1..], c[1..]);
    }
  }

  lemma {:induction false} StrLessTotal(a: string, b: string)
    ensures a == b || StrLess(a, b) || StrLess(b, a)
  {
    if a != [] && b != [] && a[0] == b[0] {
      StrLessTotal(a[1..], b[1..]);
      if a[1..] == b[1..] {
        assert a == [a[0]] + a[1..] && b == [b[0]] + b[1..];
      }
    }
  }

  /**
   * `{ [sortBy]: -1, isRegular: -1, name: 1 }`: `a` comes strictly before
   * `b` when the chosen stat is larger, else when only `a` is regular, else
   * when its name is smaller.
   */
  predicate Before(sortBy: Option<SortKey>, a: Standing, b: Standing)
  {
    if sortBy.Some? && Stat(sortBy.value, a) != Stat(sortBy.value, b) then Stat(sortBy.value, a) > Stat(sortBy.value, b)
    else if a.isRegular != b.isRegular then a.isRegular
    else StrLess(a.name, b.name)
  }

  /** The ordering is a strict order, and only players equal on every key are left unordered. */
  lemma BeforeIsStrictTotal(sortBy: Option<SortKey>, a: Standing, b: Standing, c: Standing)
    ensures !Before(sortBy, a, a)
    ensures Before(sortBy, a, b) && Before(sortBy, b, c) ==> Before(sortBy, a, c)
    ensures !Before(sortBy, a, b) && !Before(sortBy, b, a) ==>
              (sortBy.Some? ==> Stat(sortBy.value, a) == Stat(sortBy.value, b))
              && a.isRegular == b.isRegular && a.name == b.name
  {
    StrLessIrreflexive(a.name);
    StrLessTotal(a.name, b.name);
    if Before(sortBy, a, b) && Before(sortBy, b, c) && StrLess(a.name, b.name) && StrLess(b.name, c.name) {
      StrLessTransitive(a.name, b.name, c.name);
    }
  }

  /** A listing in the `getAllPlayers` order: nothing comes after a player it should precede. */
  predicate InPlayerOrder(sortBy: Option<SortKey>, ps: seq<Standing>)
  {
    forall i, j :: 0 <= i < j < |ps| ==> !Before(sortBy, ps[j], ps[i])
  }

  /** In such a listing the chosen stat never increases, and without `sortBy` the regulars come first. */
  lemma PlayerOrderKeys(sortBy: Option<SortKey>, ps: seq<Standing>, i: nat, j: nat)
    requires InPlayerOrder(sortBy, ps) && i < j < |ps|
    ensures sortBy.Some? ==> Stat(sortBy.value, ps[i]) >= Stat(sortBy.value, ps[j])
    ensures sortBy.None? && ps[j].isRegular ==> ps[i].isRegular
  {
    assert !Before(sortBy, ps[j], ps[i]);
  }

  // ---------------------------------------------------------------------
  // getPlayerByHandle and playerHistory: the populated results sorted by date

  /** A result entry with its game's date filled in by `populate`. */
  datatype DatedEntry = DatedEntry(entry: Entry, date: int)

  /** The entries of populated results, position by position. */
  function Entries(s: seq<DatedEntry>): seq<Entry>
  {
    seq(|s|, k requires 0 <= k < |s| => s[k].entry)
  }

  /** Date `x` may stand before date `y`: not later (ascending) or not earlier (descending). */
  predicate InOrder(x: int, y: int, descending: bool)
  {
    if descending then x >= y else x <= y
  }

  /** Dates never decrease (ascending) or never increase (descending) along the list. */
  predicate DateOrdered(s: seq<DatedEntry>, descending: bool)
  {
    forall i, j :: 0 <= i < j < |s| ==> InOrder(s[i].date, s[j].date, descending)
  }

  /**
   * `results.sort((a, b) => a.date > b.date ? 1 : -1)` (or the descending
   * comparator): in place, ending date-ordered and a permutation of the
   * input. The comparator answers -1 for equal dates both ways, so the order
   * among equal dates is not specified.
   */
  method SortByDate(a: array<DatedEntry>, descending: bool)
    modifies a
    ensures DateOrdered(a[..], descending)
    ensures multiset(a[..]) == multiset(old(a[..]))
  {
    var i := 0;
    while i < a.Length
      invariant 0 <= i <= a.Length
      invariant DateOrdered(a[..i], descending)
      invariant multiset(a[..]) == multiset(old(a[..]))
    {
      InsertAt(a, i, descending);
      i := i + 1;
    }
    assert a[..a.Length] == a[..];
  }

  /** Moves `a[i]` down into the ordered prefix `a[..i]` by adjacent swaps. */
  method InsertAt(a: array<DatedEntry>, i: nat, descending: bool)
    requires i < a.Length && DateOrdered(a[..i], descending)
    modifies a
    ensures DateOrdered(a[..i + 1], descending)
    ensures multiset(a[..]) == multiset(old(a[..]))
  {
    var j := i;
    while j > 0 && !InOrder(a[j - 1].date, a[j].date, descending)
      invariant 0 <= j <= i
      invariant forall p, q :: 0 <= p < q <= i && p != j && q != j ==> InOrder(a[p].date, a[q].date, descending)
      invariant forall q :: j < q <= i ==> InOrder(a[j].date, a[q].date, descending)
      invariant multiset(a[..]) == multiset(old(a[..]))
    {
      Swap(a, j);
      j := j - 1;
    }
  }

  /** Exchanges `a[j - 1]` and `a[j]`. */
  method Swap(a: array<DatedEntry>, j: nat)
    requires 0 < j < a.Length
    modifies a
    ensures a[..] == old(a[..])[j - 1 := old(a[j])][j := old(a[j - 1])]
    ensures multiset(a[..]) == multiset(old(a[..]))
  {
    a[j - 1], a[j] := a[j], a[j - 1];
  }

  // ---------------------------------------------------------------------
  // playerHistory: cumulative balance series

  /** One point of the history series. */
  datatype Point = Point(value: int, date: int, name: string)

  /**
   * The `reduce` of `playerHistory` over the date-sorted results: one point
   * per entry, whose value is the running total through that entry.
   */
  method History(name: string, sorted: seq<DatedEntry>) returns (points: seq<Point>)
    ensures |points| == |sorted|
    ensures forall i :: 0 <= i < |points| ==>
              points[i] == Point(Sum(Entries(sorted[..i + 1])), sorted[i].date, name)
  {
    var acc := 0;
    points := [];
    var i := 0;
    while i < |sorted|
      invariant 0 <= i <= |sorted|
      invariant acc == Sum(Entries(sorted[..i]))
      invariant |points| == i
      invariant forall k :: 0 <= k < i ==> points[k] == Point(Sum(Entries(sorted[..k + 1])), sorted[k].date, name)
    {
      assert Entries(sorted[..i + 1])[..i] == Entries(sorted[..i]);
      points := points + [Point(acc + sorted[i].entry.result, sorted[i].date, name)];
      acc := acc + sorted[i].entry.result;
      i := i + 1;
    }
  }

  /** Taking one entry out of a list takes its result out of the sum. */
  lemma SumWithout(b: seq<DatedEntry>, k: nat)
    requires k < |b|
    ensures Sum(Entries(b)) == Sum(Entries(b[..k] + b[k + 1..])) + b[k].entry.result
  {
    var l, e, r := Entries(b[..k]), b[k].entry, Entries(b[k + 1..]);
    assert Entries(b) == l + [e] + r;
    assert Entries(b[..k] + b[k + 1..]) == l + r;
    SumAppend(l + [e], r);
    SumAppend(l, [e]);
    SumAppend(l, r);
    assert [e][..0] == [];
    assert Sum([e]) == e.result;
  }

  /** Removing the same element from two permutations of each other leaves permutations. */
  lemma MultisetWithout(a: seq<DatedEntry>, b: seq<DatedEntry>, k: nat)
    requires multiset(a) == multiset(b) && a != [] && k < |b| && b[k] == a[|a| - 1]
    ensures multiset(a[..|a| - 1]) == multiset(b[..k] + b[k + 1..])
  {
    var x := b[k];
    assert a == a[..|a| - 1] + [x];
    assert b == b[..k] + [x] + b[k + 1..];
    assert multiset(a[..|a| - 1]) == multiset(a) - multiset{x};
    assert multiset(b[..k] + b[k + 1..]) == multiset(b) - multiset{x};
  }

  /** The sum of the results does not depend on their order. */
  lemma {:induction false} SumPermutation(a: seq<DatedEntry>, b: seq<DatedEntry>)
    requires multiset(a) == multiset(b)
    ensures Sum(Entries(a)) == Sum(Entries(b))
    decreases |a|
  {
    if a != [] {
      var x := a[|a| - 1];
      assert x in multiset(b);
      var k :| 0 <= k < |b| && b[k] == x;
      MultisetWithout(a, b, k);
      SumPermutation(a[..|a| - 1], b[..k] + b[k + 1..]);
      SumWithout(b, k);
      assert Entries(a)[..|a| - 1] == Entries(a[..|a| - 1]);
    }
  }

  /** The last point of the series is the total of all results, whatever order they came in. */
  lemma HistoryEndsAtBalance(name: string, sorted: seq<DatedEntry>, stored: seq<DatedEntry>, points: seq<Point>)
    requires multiset(sorted) == multiset(stored) && sorted != []
    requires |points| == |sorted|
    requires forall i :: 0 <= i < |points| ==> points[i] == Point(Sum(Entries(sorted[..i + 1])), sorted[i].date, name)
    ensures points[|points| - 1].value == Sum(Entries(stored))
  {
    assert sorted[..|sorted|] == sorted;
    SumPermutation(sorted, stored);
  }
}

=== FILE: ledger.dfy ===
/**
 * The player ledger: a player's ordered list of `{game, result}` entries,
 * the sum that becomes `balance`, the upsert performed by `saveGameResult`
 * and the filter performed by `deleteGame`.
 */
module Ledger {

  /**
   * An identity in canonical form: the lower-case hex `toString()` of an
   * ObjectId. Two identities are the same document exactly when equal.
   */
  type GameId = string
  type PlayerId = string

  /** One element of `player.results`. */
  datatype Entry = Entry(game: GameId, result: int)

  /** The `reduce((acc, val) => acc + val.result, 0)` fold, left to right. */
  function Sum(s: seq<Entry>): int
  {
    if s == [] then 0 else Sum(s[..|s| - 1]) + s[|s| - 1].result
  }

  lemma {:induction false} SumAppend(a: seq<Entry>, b: seq<Entry>)
    ensures Sum(a + b) == Sum(a) + Sum(b)
    decreases |b|
  {
    if b == [] {
      assert a + b == a;
    } else {
      assert (a + b)[..|a + b| - 1] == a + b[..|b| - 1];
      SumAppend(a, b[..|b| - 1]);
    }
  }

  /** Sum read from the front: the first entry plus the sum of the rest. */
  lemma {:induction false} SumCons(s: seq<Entry>)
    requires s != []
    ensures Sum(s) == s[0].result + Sum(s[1..])
  {
    assert s == [s[0]] + s[1..];
    SumAppend([s[0]], s[1..]);
    assert [s[0]][..0] == [];
  }

  /** Whether some entry refers to game `g`. */
  predicate HasGame(s: seq<Entry>, g: GameId)
  {
    exists k :: 0 <= k < |s| && s[k].game == g
  }

  /**
   * `player.results.findIndex(r => r.game === g)`: the first position whose
   * entry refers to `g`, or -1 when there is none.
   */
  function FindIndex(s: seq<Entry>, g: GameId): (i: int)
    ensures -1 <= i < |s|
    ensures i == -1 <==> !HasGame(s, g)
    ensures 0 <= i ==> s[i].game == g && forall k :: 0 <= k < i ==> s[k].game != g
  {
    if s == [] then -1
    else if s[0].game == g then 0
    else
      var j := FindIndex(s[1..], g);
      assert forall k :: 1 <= k < |s| ==> s[k] == s[1..][k - 1];
      if j < 0 then -1 else j + 1
  }

  /**
   * The upsert of `saveGameResult`: the first entry for `g` gets result `r`,
   * or, when there is none, `{g, r}` is appended at the end.
   */
  function Upsert(s: seq<Entry>, g: GameId, r: int): seq<Entry>
  {
    if s == [] then [Entry(g, r)]
    else if s[0].game == g then [Entry(g, r)] + s[1..]
    else [s[0]] + Upsert(s[1..], g, r)
  }

  /** When an entry for `g` exists, only the first one is overwritten: same length, other entries untouched. */
  lemma {:induction false} UpsertOverwrites(s: seq<Entry>, g: GameId, r: int, i: nat)
    requires i < |s| && s[i].game == g
    requires forall k :: 0 <= k < i ==> s[k].game != g
    ensures Upsert(s, g, r) == s[i := Entry(g, r)]
    ensures |Upsert(s, g, r)| == |s|
  {
    if i > 0 {
      UpsertOverwrites(s[1..], g, r, i - 1);
      assert [s[0]] + s[1..][i - 1 := Entry(g, r)] == s[i := Entry(g, r)];
    }
  }

  /** When no entry refers to `g`, exactly one entry is appended at the end. */
  lemma {:induction false} UpsertAppends(s: seq<Entry>, g: GameId, r: int)
    requires !HasGame(s, g)
    ensures Upsert(s, g, r) == s + [Entry(g, r)]
  {
    if s != [] {
      assert s[0].game != g;
      assert !HasGame(s[1..], g) by {
        forall k | 0 <= k < |s[1..]| ensures s[1..][k].game != g {
          assert s[1..][k] == s[k + 1];
        }
      }
      UpsertAppends(s[1..], g, r);
      assert [s[0]] + (s[1..] + [Entry(g, r)]) == s + [Entry(g, r)];
    }
  }

  /** Upsert written with `FindIndex`, as the resolver does it: index write or push. */
  lemma UpsertByIndex(s: seq<Entry>, g: GameId, r: int)
    ensures FindIndex(s, g) >= 0 ==> Upsert(s, g, r) == s[FindIndex(s, g) := Entry(g, r)]
    ensures FindIndex(s, g) < 0 ==> Upsert(s, g, r) == s + [Entry(g, r)]
  {
    var i := FindIndex(s, g);
    if i >= 0 {
      UpsertOverwrites(s, g, r, i);
    } else {
      UpsertAppends(s, g, r);
    }
  }

  /** After an upsert the first entry for `g` carries `r`. */
  lemma {:induction false} UpsertFirstMatch(s: seq<Entry>, g: GameId, r: int)
    ensures FindIndex(Upsert(s, g, r), g) >= 0
    ensures Upsert(s, g, r)[FindIndex(Upsert(s, g, r), g)] == Entry(g, r)
  {
    if s != [] && s[0].game != g {
      UpsertFirstMatch(s[1..], g, r);
    }
  }

  /** A second upsert for the same game replaces the first: the last write wins. */
  lemma {:induction false} UpsertLastWins(s: seq<Entry>, g: GameId, a: int, b: int)
    ensures Upsert(Upsert(s, g, a), g, b) == Upsert(s, g, b)
  {
    if s != [] && s[0].game != g {
      UpsertLastWins(s[1..], g, a, b);
    }
  }

  /** The balance after an upsert: the old sum, minus the overwritten result, plus the new one. */
  lemma {:induction false} UpsertSum(s: seq<Entry>, g: GameId, r: int)
    ensures HasGame(s, g) ==> Sum(Upsert(s, g, r)) == Sum(s) - s[FindIndex(s, g)].result + r
    ensures !HasGame(s, g) ==> Sum(Upsert(s, g, r)) == Sum(s) + r
  {
    if s == [] {
      assert Upsert(s, g, r) == [Entry(g, r)];
      assert [Entry(g, r)][..0] == [];
    } else {
      SumCons(s);
      SumCons(Upsert(s, g, r));
      if s[0].game != g {
        UpsertSum(s[1..], g, r);
        assert HasGame(s, g) <==> HasGame(s[1..], g) by {
          if HasGame(s, g) {
            var k :| 0 <= k < |s| && s[k].game == g;
            assert s[1..][k - 1] == s[k];
          }
          if HasGame(s[1..], g) {
            var k :| 0 <= k < |s[1..]| && s[1..][k].game == g;
            assert s[k + 1] == s[1..][k];
          }
        }
      } else {
        assert HasGame(s, g);
      }
    }
  }

  /**
   * `player.results.filter(e => e.game !== g)`: the entries that do not
   * refer to `g`, in their original order.
   */
  function WithoutGame(s: seq<Entry>, g: GameId): seq<Entry>
  {
    if s == [] then []
    else WithoutGame(s[..|s| - 1], g) + (if s[|s| - 1].game == g then [] else [s[|s| - 1]])
  }

  /** The filter splits over concatenation: it removes entries one at a time and keeps the order of the rest. */
  lemma {:induction false} WithoutGameAppend(a: seq<Entry>, b: seq<Entry>, g: GameId)
    ensures WithoutGame(a + b, g) == WithoutGame(a, g) + WithoutGame(b, g)
    decreases |b|
  {
    if b == [] {
      assert a + b == a;
    } else {
      assert (a + b)[..|a + b| - 1] == a + b[..|b| - 1];
      WithoutGameAppend(a, b[..|b| - 1], g);
    }
  }

  /** On one entry the filter keeps it exactly when it refers to another game. */
  lemma WithoutGameSingle(e: Entry, g: GameId)
    ensures WithoutGame([e], g) == if e.game == g then [] else [e]
  {
    assert [e][..0] == [];
  }

  /** Nothing that refers to `g` survives, and every entry that does not is kept. */
  lemma {:induction false} WithoutGameExact(s: seq<Entry>, g: GameId)
    ensures !HasGame(WithoutGame(s, g), g)
    ensures forall e :: e in s && e.game != g ==> e in WithoutGame(s, g)
    ensures forall e :: e in WithoutGame(s, g) ==> e in s
  {
    if s != [] {
      var t := s[..|s| - 1];
      WithoutGameExact(t, g);
      assert s == t + [s[|s| - 1]];
      var w := WithoutGame(s, g);
      forall k | 0 <= k < |w| ensures w[k].game != g {
        if k < |WithoutGame(t, g)| {
          assert w[k] == WithoutGame(t, g)[k];
        }
      }
    }
  }

  /** Filtering is a no-op on a list that has no entry for `g`. */
  lemma {:induction false} WithoutAbsentGame(s: seq<Entry>, g: GameId)
    requires !HasGame(s, g)
    ensures WithoutGame(s, g) == s
  {
    if s != [] {
      var t := s[..|s| - 1];
      assert !HasGame(t, g) by {
        forall k | 0 <= k < |t| ensures t[k].game != g {
          assert t[k] == s[k];
        }
      }
      WithoutAbsentGame(t, g);
      assert s[|s| - 1].game != g;
      assert t + [s[|s| - 1]] == s;
    }
  }

  /** Filtering twice is filtering once. */
  lemma WithoutGameIdempotent(s: seq<Entry>, g: GameId)
    ensures WithoutGame(WithoutGame(s, g), g) == WithoutGame(s, g)
  {
    WithoutGameExact(s, g);
    WithoutAbsentGame(WithoutGame(s, g), g);
  }

  /** Deleting a game right after its result was added to a list without it gives the list back. */
  lemma UpsertThenDelete(s: seq<Entry>, g: GameId, r: int)
    requires !HasGame(s, g)
    ensures WithoutGame(Upsert(s, g, r), g) == s
  {
    UpsertAppends(s, g, r);
    WithoutGameAppend(s, [Entry(g, r)], g);
    WithoutGameSingle(Entry(g, r), g);
    WithoutAbsentGame(s, g);
    assert s + [] == s;
  }
}

=== FILE: legacy.dfy ===
/**
 * The older revision of the game resolver (resolvers/gameResolver.js). Its
 * upsert, sum and streak folds are those of the current revision; it differs
 * in taking the maximum of the samples with no empty-list guard, so a player
 * with no positive (or no negative) result gets `-Infinity`, which is not a
 * number of games. `None` stands for that value here.
 */
module Legacy {
  import opened Wrappers
  import opened Ledger
  import opened Streaks

  /** `xs.max()` with no guard: `None` is `Math.max()` of nothing, i.e. `-Infinity`. */
  function LegacyMax(xs: seq<nat>): (m: Option<nat>)
    ensures m == None <==> xs == []
    ensures m.Some? ==> m.value == MaxOrZero(xs)
  {
    if xs == [] then None else Some(Max(xs))
  }

  /** The legacy statistic: the guarded one whenever the player has a result of the streak's sign. */
  lemma LegacyStreakAgrees(d: Direction, s: seq<Entry>)
    ensures LegacyMax(Samples(d, s)) == None <==> forall k :: 0 <= k < |s| ==> !Extends(d, s[k].result)
    ensures LegacyMax(Samples(d, s)).Some? ==> LegacyMax(Samples(d, s)).value == Streak(d, s)
  {
    SamplesBounds(d, s);
    CountExtendsZero(d, s);
  }

  /** Counterexample: one lost game leaves the legacy win statistic at `-Infinity`, the current one at 0. */
  lemma LegacyLossOnlyHasNoWinStreak()
    ensures LegacyMax(Samples(Win, [Entry("g1", -10)])) == None
    ensures Streak(Win, [Entry("g1", -10)]) == 0
  {
    var s := [Entry("g1", -10)];
    FoldStep(Win, [], s[0]);
    assert [] + [s[0]] == s;
  }

  /** A player document as the older revision updates it. */
  class LegacyPlayer {
    var results: seq<Entry>
    var balance: int
    var gameCount: int
    var maxSeriesOfWin: Option<nat>
    var maxSeriesOfLoose: Option<nat>

    ghost predicate Valid()
      reads this
    {
      balance == Sum(results) && gameCount == |results|
    }

    constructor ()
      ensures results == [] && Valid()
      ensures maxSeriesOfWin == Some(0) && maxSeriesOfLoose == Some(0)
    {
      results := [];
      balance := 0;
      gameCount := 0;
      maxSeriesOfWin := Some(0);
      maxSeriesOfLoose := Some(0);
    }

    /** Saves result `r` of game `g` and recomputes the statistics with the unguarded maximum. */
    method ApplyResult(g: GameId, r: int)
      modifies this
      ensures results == Upsert(old(results), g, r)
      ensures Valid()
      ensures maxSeriesOfWin == LegacyMax(Samples(Win, results))
      ensures maxSeriesOfLoose == LegacyMax(Samples(Loss, results))
    {
      var i := FindIndex(results, g);
      UpsertByIndex(results, g, r);
      results := if i >= 0 then results[i := Entry(g, r)] else results + [Entry(g, r)];
      Recompute();
    }

    /** Recomputes the totals and both statistics from the list, the maximum taken unguarded. */
    method Recompute()
      modifies this`balance, this`gameCount, this`maxSeriesOfWin, this`maxSeriesOfLoose
      ensures Valid()
      ensures maxSeriesOfWin == LegacyMax(Samples(Win, results))
      ensures maxSeriesOfLoose == LegacyMax(Samples(Loss, results))
    {
      balance := Sum(results);
      gameCount := |results|;
      var wins := CollectSamples(Win, results);
      var losses := CollectSamples(Loss, results);
      maxSeriesOfWin := LegacyMax(wins);
      maxSeriesOfLoose := LegacyMax(losses);
    }

    /** Removes the entries for `g`; only `balance` and `gameCount` are recomputed. */
    method RemoveGame(g: GameId)
      modifies this
      ensures results == WithoutGame(old(results), g)
      ensures Valid()
      ensures maxSeriesOfWin == old(maxSeriesOfWin) && maxSeriesOfLoose == old(maxSeriesOfLoose)
    {
      results := WithoutGame(results, g);
      balance := Sum(results);
      gameCount := |results|;
    }
  }
}

=== FILE: names.dfy ===
/**
 * The name rules of `createGame`: the name looked up for a conflict is the
 * trimmed input (or today's date string when no name is given), while the
 * name stored is the input as given.
 */
module Names {

  /** The characters `String.prototype.trim` removes: ECMAScript WhiteSpace and LineTerminator. */
  predicate IsJsSpace(c: char)
  {
    var n := c as int;
    n == 0x09 || n == 0x0A || n == 0x0B || n == 0x0C || n == 0x0D || n == 0x20
    || n == 0xA0 || n == 0x1680 || (0x2000 <= n <= 0x200A)
    || n == 0x2028 || n == 0x2029 || n == 0x202F || n == 0x205F
    || n == 0x3000 || n == 0xFEFF
  }

  /** The number of white-space characters at the start of `s`. */
  function Leading(s: string): (n: nat)
    ensures n <= |s|
    ensures forall k :: 0 <= k < n ==> IsJsSpace(s[k])
    ensures n < |s| ==> !IsJsSpace(s[n])
  {
    if s != [] && IsJsSpace(s[0]) then
      var n := Leading(s[1..]);
      assert forall k :: 1 <= k < n + 1 ==> s[k] == s[1..][k - 1];
      n + 1
    else 0
  }

  /** The number of white-space characters at the end of `s`. */
  function Trailing(s: string): (n: nat)
    ensures n <= |s|
    ensures forall k :: |s| - n <= k < |s| ==> IsJsSpace(s[k])
    ensures n < |s| ==> !IsJsSpace(s[|s| - n - 1])
  {
    if s != [] && IsJsSpace(s[|s| - 1]) then
      var n := Trailing(s[..|s| - 1]);
      assert forall k :: |s| - 1 - n <= k < |s| - 1 ==> s[k] == s[..|s| - 1][k];
      n + 1
    else 0
  }

  /** `s.trim()`: the input with leading and trailing white space removed. */
  function Trim(s: string): (t: string)
    ensures t != [] ==> !IsJsSpace(t[0]) && !IsJsSpace(t[|t| - 1])
    ensures t == [] <==> forall k :: 0 <= k < |s| ==> IsJsSpace(s[k])
    ensures t != [] ==> t == s[Leading(s)..|s| - Trailing(s)]
  {
    var i := Leading(s);
    if i == |s| then ""
    else
      assert !IsJsSpace(s[i]);
      assert Trailing(s) < |s| - i;
      s[i..|s| - Trailing(s)]
  }

  /** Trimming a trimmed name changes nothing. */
  lemma TrimIdempotent(s: string)
    ensures Trim(Trim(s)) == Trim(s)
  {
    var t := Trim(s);
    if t != [] {
      assert Leading(t) == 0;
      assert Trailing(t) == 0;
      assert t[0..|t|] == t;
    }
  }

  /** JavaScript truthiness of an optional string: absent and empty are both false. */
  predicate Given(name: string)
  {
    name != ""
  }

  /**
   * The name the conflict lookup uses: `name ? name.trim() : <date>`, where
   * `lookupDay` is the date string the clock gave at the lookup.
   */
  function LookupName(name: string, lookupDay: string): string
  {
    if Given(name) then Trim(name) else lookupDay
  }

  /**
   * The name the new game is stored under: `name ? name : <date>`,
   * untrimmed, where `storedDay` is the date string of a second clock read.
   */
  function StoredName(name: string, storedDay: string): string
  {
    if Given(name) then name else storedDay
  }

  /** The conflict lookup only ever uses a trimmed name: trimming it again changes nothing. */
  lemma LookupNameIsTrimmed(name: string, lookupDay: string)
    requires Given(name)
    ensures Trim(LookupName(name, lookupDay)) == LookupName(name, lookupDay)
  {
    TrimIdempotent(name);
  }

  /**
   * Lookup and stored names differ exactly when a given name has white
   * space at either end, or when no name is given and the two clock reads
   * fall on different days.
   */
  lemma StoredDiffersFromLookup(name: string, lookupDay: string, storedDay: string)
    ensures StoredName(name, storedDay) != LookupName(name, lookupDay)
            <==> (Given(name) && (IsJsSpace(name[0]) || IsJsSpace(name[|name| - 1])))
                 || (!Given(name) && lookupDay != storedDay)
  {
    if Given(name) {
      if !IsJsSpace(name[0]) && !IsJsSpace(name[|name| - 1]) {
        assert Leading(name) == 0 && Trailing(name) == 0;
        assert name[0..|name|] == name;
      }
    }
  }
}

=== FILE: pagination.dfy ===
/**
 * The page arithmetic of `getAllGames`: `skip = page * limit - limit`,
 * `pageCount = ceil(itemCount / limit)`, `has_more = page < pageCount`, and
 * the page itself is the newest-first game list after `skip(skip)` and
 * `limit(limit)`.
 */
module Pagination {
  import opened Wrappers

  /** The value an absent argument takes: `{ limit = 10, page = 1 }`. */
  const DefaultLimit := 10
  const DefaultPage := 1

  datatype PageError = NegativeSkip

  datatype Paged<T> = Paged(pageCount: nat, itemCount: nat, data: seq<T>, hasMore: bool)

  /** `page * limit - limit`: the number of games before the requested page. */
  function Skip(limit: int, page: int): int
  {
    page * limit - limit
  }

  /** `Math.ceil(itemCount / limit)`: the least number of pages of `limit` games holding them all. */
  function PageCount(itemCount: nat, limit: int): (n: nat)
    requires limit > 0
    ensures n * limit >= itemCount
    ensures n > 0 ==> (n - 1) * limit < itemCount
  {
    var n := (itemCount + limit - 1) / limit;
    assert n * limit <= itemCount + limit - 1 < (n + 1) * limit;
    n
  }

  /**
   * The paginated answer for a date-ordered game list, or the database's
   * error when the skip is negative (a page below 1).
   */
  function GetAllGames<T>(games: seq<T>, limitArg: Option<int>, pageArg: Option<int>): (r: Result<Paged<T>, PageError>)
    requires limitArg.Some? ==> limitArg.value > 0
    ensures var limit := if limitArg.Some? then limitArg.value else DefaultLimit;
            var page := if pageArg.Some? then pageArg.value else DefaultPage;
            var skip := (page - 1) * limit;
            && (r.Failure? <==> skip < 0)
            && (r.Success? ==>
                  && r.value.itemCount == |games|
                  && r.value.pageCount == PageCount(|games|, limit)
                  && (r.value.hasMore <==> page < r.value.pageCount)
                  && |r.value.data| == (if skip >= |games| then 0
                                        else if skip + limit <= |games| then limit
                                        else |games| - skip)
                  && forall k :: 0 <= k < |r.value.data| ==> r.value.data[k] == games[skip + k])
  {
    var limit := if limitArg.Some? then limitArg.value else DefaultLimit;
    var page := if pageArg.Some? then pageArg.value else DefaultPage;
    var skip := Skip(limit, page);
    if skip < 0 then Failure(NegativeSkip)
    else
      var pageCount := PageCount(|games|, limit);
      var data := if skip >= |games| then [] else if skip + limit <= |games| then games[skip..skip + limit] else games[skip..];
      Success(Paged(pageCount, |games|, data, page < pageCount))
  }

  /** Arithmetic: the quotient brackets the dividend. */
  lemma DivBrackets(index: nat, limit: int)
    requires limit > 0
    ensures 0 <= (index / limit) * limit <= index < (index / limit) * limit + limit
    ensures (index / limit) * limit + index % limit == index
  {
  }

  /** Arithmetic: multiplying by a positive number keeps a strict order. */
  lemma MulCancel(a: int, b: int, limit: int)
    requires limit > 0 && a * limit < b * limit
    ensures a < b
  {
  }

  /** Arithmetic: multiplying by a positive number keeps the order. */
  lemma MulMono(a: int, b: int, limit: int)
    requires limit > 0 && a <= b
    ensures a * limit <= b * limit
  {
  }

  /** With a positive limit, the query fails exactly for a page below the first. */
  lemma FailsExactlyBelowFirstPage<T>(games: seq<T>, limit: int, page: int)
    requires limit > 0
    ensures GetAllGames(games, Some(limit), Some(page)).Failure? <==> page < 1
  {
    if page >= 1 {
      MulMono(0, page - 1, limit);
    } else {
      MulMono(page - 1, -1, limit);
    }
  }

  /**
   * Every game appears on page `index / limit + 1`, which lies between 1 and
   * the page count, at position `index % limit` of that page.
   */
  lemma GameOnItsPage<T>(games: seq<T>, limit: int, index: nat)
    requires limit > 0 && index < |games|
    ensures var page := index / limit + 1;
            && 1 <= page <= PageCount(|games|, limit)
            && GetAllGames(games, Some(limit), Some(page)).Success?
            && index % limit < |GetAllGames(games, Some(limit), Some(page)).value.data|
            && GetAllGames(games, Some(limit), Some(page)).value.data[index % limit] == games[index]
  {
    var q := index / limit;
    DivBrackets(index, limit);
    var n := PageCount(|games|, limit);
    MulCancel(q, n, limit);
    var skip := q * limit;
    assert Skip(limit, q + 1) == skip;
    var r := GetAllGames(games, Some(limit), Some(q + 1));
    assert r.Success?;
    assert index % limit < |r.value.data|;
    assert r.value.data[index % limit] == games[skip + index % limit];
  }

  /**
   * A page before the last one is answered with `has_more`, is full, and is
   * followed by a page holding at least one game.
   */
  lemma HasMoreMeansNextPage<T>(games: seq<T>, limit: int, page: int)
    requires limit > 0 && 1 <= page < PageCount(|games|, limit)
    ensures GetAllGames(games, Some(limit), Some(page)).Success?
    ensures GetAllGames(games, Some(limit), Some(page)).value.hasMore
    ensures |GetAllGames(games, Some(limit), Some(page)).value.data| == limit
    ensures GetAllGames(games, Some(limit), Some(page + 1)).Success?
    ensures GetAllGames(games, Some(limit), Some(page + 1)).value.data != []
  {
    var n := PageCount(|games|, limit);
    var skip := Skip(limit, page);
    var next := Skip(limit, page + 1);
    assert next == skip + limit;
    MulMono(page, n - 1, limit);
    assert next < |games|;
  }
}

=== FILE: players.dfy ===
/**
 * A player document: profile fields, the ordered result list and the four
 * cached statistics, updated in place by the game resolver.
 */
module Players {
  import opened Ledger
  import opened Streaks

  class Player {
    var name: string
    var handle: string
    var isRegular: bool
    var isShowInRating: bool
    var results: seq<Entry>
    var balance: int
    var gameCount: int
    var maxSeriesOfWin: int
    var maxSeriesOfLoose: int

    /** The cached totals agree with the result list; this holds after every mutation. */
    ghost predicate Valid()
      reads this
    {
      balance == Sum(results) && gameCount == |results|
    }

    /** All four statistics agree with the result list (true after a result is saved). */
    ghost predicate StatsCurrent()
      reads this
    {
      Valid() && maxSeriesOfWin == Streak(Win, results) && maxSeriesOfLoose == Streak(Loss, results)
    }

    /** A new player: no results and every statistic at its default of 0. */
    constructor (name: string, handle: string, isRegular: bool, isShowInRating: bool)
      ensures this.name == name && this.handle == handle
      ensures this.isRegular == isRegular && this.isShowInRating == isShowInRating
      ensures results == [] && balance == 0 && gameCount == 0
      ensures maxSeriesOfWin == 0 && maxSeriesOfLoose == 0
      ensures StatsCurrent()
    {
      this.name := name;
      this.handle := handle;
      this.isRegular := isRegular;
      this.isShowInRating := isShowInRating;
      results := [];
      balance := 0;
      gameCount := 0;
      maxSeriesOfWin := 0;
      maxSeriesOfLoose := 0;
    }

    /** Overwrites the profile fields, as `findByIdAndUpdate` does in `createPlayer`. */
    method UpdateProfile(name: string, handle: string, isRegular: bool, isShowInRating: bool)
      modifies this`name, this`handle, this`isRegular, this`isShowInRating
      ensures this.name == name && this.handle == handle
      ensures this.isRegular == isRegular && this.isShowInRating == isShowInRating
    {
      this.name := name;
      this.handle := handle;
      this.isRegular := isRegular;
      this.isShowInRating := isShowInRating;
    }

    /**
     * Saves result `r` of game `g`: overwrite the entry for `g` or append
     * one, then recompute all four statistics from the list.
     */
    method ApplyResult(g: GameId, r: int)
      modifies this`results, this`balance, this`gameCount, this`maxSeriesOfWin, this`maxSeriesOfLoose
      ensures results == Upsert(old(results), g, r)
      ensures StatsCurrent()
    {
      var i := FindIndex(results, g);
      UpsertByIndex(results, g, r);
      results := if i >= 0 then results[i := Entry(g, r)] else results + [Entry(g, r)];
      Recompute();
    }

    /** Recomputes the totals and both streak statistics from the list. */
    method Recompute()
      modifies this`balance, this`gameCount, this`maxSeriesOfWin, this`maxSeriesOfLoose
      ensures StatsCurrent()
    {
      balance := Sum(results);
      gameCount := |results|;
      var wins := CollectSamples(Win, results);
      var losses := CollectSamples(Loss, results);
      maxSeriesOfWin := if |wins| > 0 then Max(wins) else 0;
      maxSeriesOfLoose := if |losses| > 0 then Max(losses) else 0;
    }

    /**
     * Removes every entry for game `g` and recomputes `balance` and
     * `gameCount` only; the streak statistics keep their old values.
     */
    method RemoveGame(g: GameId)
      modifies this`results, this`balance, this`gameCount
      ensures results == WithoutGame(old(results), g)
      ensures Valid()
      ensures maxSeriesOfWin == old(maxSeriesOfWin) && maxSeriesOfLoose == old(maxSeriesOfLoose)
    {
      results := WithoutGame(results, g);
      balance := Sum(results);
      gameCount := |results|;
    }
  }

  /**
   * Saving the same result twice leaves the list and all four statistics as
   * after the first save.
   */
  lemma ApplyTwiceSameAsOnce(s: seq<Entry>, g: GameId, r: int)
    ensures Upsert(Upsert(s, g, r), g, r) == Upsert(s, g, r)
    ensures Sum(Upsert(Upsert(s, g, r), g, r)) == Sum(Upsert(s, g, r))
    ensures Streak(Win, Upsert(Upsert(s, g, r), g, r)) == Streak(Win, Upsert(s, g, r))
    ensures Streak(Loss, Upsert(Upsert(s, g, r), g, r)) == Streak(Loss, Upsert(s, g, r))
  {
    UpsertLastWins(s, g, r, r);
  }
}

=== FILE: store.dfy ===
/**
 * The result application service over an in-memory store of games and
 * player documents: `saveGameResult`, `deleteGame`, `createGame`,
 * `createPlayer`, and the two read paths that sort a player's results by
 * game date.
 */
module Store {
  import opened Wrappers
  import opened Ledger
  import opened Streaks
  import opened Players
  import opened Names
  import opened Directory

  datatype Error =
    | MissingGameId          // `if (!id)` in saveGameResult
    | GameNotFound           // no game with that id
    | NameTaken(name: string) // createGame: a game already has the looked-up name
    | HandleTaken            // createPlayer: the handle belongs to another player
    | PlayerNotFound         // no player with that handle
    | GameMissingForEntry    // a result entry names a game that no longer exists

  /** A game document. `players[i]` scored `results[i]`. */
  datatype Game = Game(name: string, date: int, players: seq<PlayerId>, results: seq<int>,
                       buyIn: int, isBigGame: bool)

  /** The schema default of `buyIn`. */
  const DefaultBuyIn := 500

  /**
   * The result the roster gives player `k`: the one at the last position
   * naming `k`, since later updates of the same player overwrite earlier ones.
   */
  function LastResult(k: PlayerId, ids: seq<PlayerId>, rs: seq<int>): Option<int>
    requires |ids| == |rs|
  {
    if ids == [] then None
    else if ids[|ids| - 1] == k then Some(rs[|rs| - 1])
    else LastResult(k, ids[..|ids| - 1], rs[..|rs| - 1])
  }

  /** `LastResult` is absent exactly for ids off the roster, and otherwise the result at the last position naming `k`. */
  lemma {:induction false} LastResultIsLast(k: PlayerId, ids: seq<PlayerId>, rs: seq<int>)
    requires |ids| == |rs|
    ensures LastResult(k, ids, rs).None? <==> k !in ids
    ensures LastResult(k, ids, rs).Some? ==>
              exists i :: 0 <= i < |ids| && ids[i] == k && LastResult(k, ids, rs).value == rs[i]
                          && forall j :: i < j < |ids| ==> ids[j] != k
  {
    if ids != [] && ids[|ids| - 1] != k {
      var n := |ids| - 1;
      LastResultIsLast(k, ids[..n], rs[..n]);
      assert ids == ids[..n] + [ids[n]];
      if LastResult(k, ids, rs).Some? {
        var i :| 0 <= i < n && ids[..n][i] == k && LastResult(k, ids, rs).value == rs[..n][i]
                 && forall j :: i < j < n ==> ids[..n][j] != k;
        assert ids[i] == k && LastResult(k, ids, rs).value == rs[i];
      }
    }
  }

  /** One more position of the roster. */
  lemma LastResultStep(k: PlayerId, ids: seq<PlayerId>, rs: seq<int>, i: nat)
    requires |ids| == |rs| && i < |ids|
    ensures LastResult(k, ids[..i + 1], rs[..i + 1]) ==
              if ids[i] == k then Some(rs[i]) else LastResult(k, ids[..i], rs[..i])
  {
    assert ids[..i + 1][..i] == ids[..i];
    assert rs[..i + 1][..i] == rs[..i];
  }

  /** The entries of `s` with their games' dates, or `None` when some game no longer exists. */
  function Populate(s: seq<Entry>, games: map<GameId, Game>): (r: Option<seq<DatedEntry>>)
    ensures r.Some? <==> forall k :: 0 <= k < |s| ==> s[k].game in games
    ensures r.Some? ==> Entries(r.value) == s
    ensures r.Some? ==> forall k :: 0 <= k < |s| ==> r.value[k].date == games[s[k].game].date
  {
    if s == [] then Some([])
    else
      var rest := Populate(s[..|s| - 1], games);
      var e := s[|s| - 1];
      assert forall k :: 0 <= k < |s| - 1 ==> s[..|s| - 1][k] == s[k];
      if rest.None? || e.game !in games then None
      else
        var r := rest.value + [DatedEntry(e, games[e.game].date)];
        assert Entries(r) == s;
        Some(r)
  }

  /** A game with the given name exists (`Game.findOne({ name })`). */
  predicate NameInUse(games: map<GameId, Game>, name: string)
  {
    exists k :: k in games && games[k].name == name
  }

  /** The fields of a player document, read at one moment. */
  datatype Snapshot = Snapshot(name: string, handle: string, isRegular: bool, isShowInRating: bool,
                               results: seq<Entry>, balance: int, gameCount: int,
                               maxSeriesOfWin: int, maxSeriesOfLoose: int)

  ghost function Snap(p: Player): Snapshot
    reads p
  {
    Snapshot(p.name, p.handle, p.isRegular, p.isShowInRating, p.results, p.balance, p.gameCount,
             p.maxSeriesOfWin, p.maxSeriesOfLoose)
  }

  /**
   * A player document as `saveGameResult` leaves it: when the roster gives
   * it result `x`, the list is upserted and all four statistics are
   * recomputed from it; otherwise nothing changes.
   */
  function Saved(s: Snapshot, g: GameId, x: Option<int>): Snapshot
  {
    if x.None? then s
    else
      var rs := Upsert(s.results, g, x.value);
      s.(results := rs, balance := Sum(rs), gameCount := |rs|,
         maxSeriesOfWin := Streak(Win, rs), maxSeriesOfLoose := Streak(Loss, rs))
  }

  /**
   * A player document as `deleteGame` leaves it: on the roster, the entries
   * for `g` are filtered out and `balance` and `gameCount` recomputed; the
   * streaks and the profile keep their values.
   */
  function Removed(s: Snapshot, g: GameId, onRoster: bool): Snapshot
  {
    if !onRoster then s
    else
      var rs := WithoutGame(s.results, g);
      s.(results := rs, balance := Sum(rs), gameCount := |rs|)
  }

  /** A later result for the same game replaces an earlier one: only the last save counts. */
  lemma {:induction false} SavedTwice(s: Snapshot, g: GameId, x: Option<int>, r: int)
    ensures Saved(Saved(s, g, x), g, Some(r)) == Saved(s, g, Some(r))
  {
    if x.Some? {
      UpsertLastWins(s.results, g, x.value, r);
    }
  }

  /** Removing a game twice is removing it once. */
  lemma {:induction false} RemovedTwice(s: Snapshot, g: GameId, onRoster: bool)
    ensures Removed(Removed(s, g, onRoster), g, true) == Removed(s, g, true)
  {
    if onRoster {
      WithoutGameIdempotent(s.results, g);
    }
  }

  class Store {
    var games: map<GameId, Game>
    var players: map<PlayerId, Player>
    /** The player documents this store owns. */
    ghost var Repr: set<Player>

    /**
     * Each id names its own player document, every document's totals agree
     * with its list, and no two players share a handle.
     */
    ghost predicate Valid()
      reads this, Repr
    {
      Owned() && Distinct() && HandlesUnique() && forall k :: k in players ==> players[k].Valid()
    }

    /** Every player document belongs to the footprint. */
    ghost predicate Owned()
      reads this
    {
      forall k :: k in players ==> players[k] in Repr
    }

    /** Different ids name different documents. */
    ghost predicate Distinct()
      reads this
    {
      forall a, b :: a in players && b in players && a != b ==> players[a] != players[b]
    }

    /** No two players share a handle. */
    ghost predicate HandlesUnique()
      reads this, Repr
      requires Owned()
    {
      forall a, b :: a in players && b in players && a != b ==> players[a].handle != players[b].handle
    }

    constructor ()
      ensures Valid() && games == map[] && players == map[] && Repr == {}
    {
      games := map[];
      players := map[];
      Repr := {};
    }

    /**
     * `saveGameResult`: overwrite the game's roster, results, name and date,
     * then upsert `rs[i]` into the list of player `ids[i]` and recompute that
     * player's four statistics. Results beyond the roster are stored with
     * the game but paired with no player. A roster id with no player
     * document is skipped; players the roster does not name are untouched.
     */
    method SaveGameResult(id: GameId, ids: seq<PlayerId>, rs: seq<int>, name: string, date: int)
      returns (res: Result<Game, Error>)
      requires Valid()
      requires |ids| <= |rs|
      modifies this`games, Repr
      ensures Valid() && players == old(players) && Repr == old(Repr)
      ensures id == "" ==> res == Failure(MissingGameId)
      ensures id != "" && id !in old(games) ==> res == Failure(GameNotFound)
      ensures res.Success? <==> id != "" && id in old(games)
      ensures res.Failure? ==> games == old(games)
      ensures res.Success? ==>
                && games == old(games)[id := old(games)[id].(name := name, date := date, players := ids, results := rs)]
                && res.value == games[id]
      ensures forall k :: k in players ==>
                Snap(players[k]) == Saved(old(Snap(players[k])), id, if res.Success? then LastResult(k, ids, rs[..|ids|]) else None)
    {
      ghost var before := map k | k in players :: Snap(players[k]);
      if id == "" {
        return Failure(MissingGameId);
      }
      if id !in games {
        return Failure(GameNotFound);
      }
      games := games[id := games[id].(name := name, date := date, players := ids, results := rs)];
      var paired := rs[..|ids|];
      var i := 0;
      while i < |ids|
        invariant 0 <= i <= |ids|
        invariant Valid() && players == old(players) && Repr == old(Repr)
        invariant games == old(games)[id := old(games)[id].(name := name, date := date, players := ids, results := rs)]
        invariant SavedUpTo(before, id, ids, paired, i)
      {
        SaveStep(before, id, ids, paired, i);
        i := i + 1;
      }
      assert ids[..|ids|] == ids && paired[..|paired|] == paired;
      assert SavedUpTo(before, id, ids, paired, |ids|);
      res := Success(games[id]);
    }

    /** Every player as `saveGameResult` leaves it once the first `n` roster positions are processed. */
    ghost predicate SavedUpTo(before: map<PlayerId, Snapshot>, id: GameId, ids: seq<PlayerId>, rs: seq<int>, n: nat)
      reads this, set k | k in players :: players[k]
      requires |ids| == |rs| && n <= |ids|
    {
      forall k :: k in players ==> k in before && Snap(players[k]) == Saved(before[k], id, LastResult(k, ids[..n], rs[..n]))
    }

    /** Roster position `i` of `saveGameResult`, taking every player from `i` to `i + 1` positions processed. */
    method SaveStep(ghost before: map<PlayerId, Snapshot>, id: GameId, ids: seq<PlayerId>, rs: seq<int>, i: nat)
      requires Valid() && |ids| == |rs| && i < |ids|
      requires SavedUpTo(before, id, ids, rs, i)
      modifies Repr
      ensures Valid() && players == old(players) && Repr == old(Repr)
      ensures SavedUpTo(before, id, ids, rs, i + 1)
    {
      SaveForPlayer(ids[i], id, rs[i]);
      forall k | k in players
        ensures Snap(players[k]) == Saved(before[k], id, LastResult(k, ids[..i + 1], rs[..i + 1]))
      {
        LastResultStep(k, ids, rs, i);
        if k == ids[i] {
          SavedTwice(before[k], id, LastResult(k, ids[..i], rs[..i]), rs[i]);
        }
      }
    }

    /** One roster position of `saveGameResult`: save `r` for player `pl`, if it has a document. */
    method SaveForPlayer(pl: PlayerId, id: GameId, r: int)
      requires Valid()
      modifies Repr
      ensures Valid() && players == old(players) && Repr == old(Repr)
      ensures forall k :: k in players ==>
                Snap(players[k]) == Saved(old(Snap(players[k])), id, if k == pl then Some(r) else None)
    {
      if pl in players {
        players[pl].ApplyResult(id, r);
      }
    }

    /**
     * `deleteGame`: remove the game and, for each player on its roster,
     * filter out the entries for it and recompute `balance` and `gameCount`
     * only. The streak statistics and every player off the roster keep their
     * values.
     */
    method DeleteGame(id: GameId) returns (res: Result<Game, Error>)
      requires Valid()
      modifies this`games, Repr
      ensures Valid() && players == old(players) && Repr == old(Repr)
      ensures id !in old(games) ==> res == Failure(GameNotFound) && games == old(games)
      ensures id in old(games) ==> res == Success(old(games)[id]) && games == old(games) - {id}
      ensures forall k :: k in players ==>
                Snap(players[k]) == Removed(old(Snap(players[k])), id, id in old(games) && k in old(games)[id].players)
    {
      ghost var before := map k | k in players :: Snap(players[k]);
      if id !in games {
        return Failure(GameNotFound);
      }
      var game := games[id];
      games := games - {id};
      var i := 0;
      while i < |game.players|
        invariant 0 <= i <= |game.players|
        invariant Valid() && players == old(players) && Repr == old(Repr)
        invariant games == old(games) - {id}
        invariant RemovedUpTo(before, id, game.players[..i])
      {
        RemoveStep(before, id, game.players, i);
        i := i + 1;
      }
      assert game.players[..|game.players|] == game.players;
      assert RemovedUpTo(before, id, game.players);
      res := Success(game);
    }

    /** Every player as `deleteGame` leaves it once the roster ids in `done` are processed. */
    ghost predicate RemovedUpTo(before: map<PlayerId, Snapshot>, id: GameId, done: seq<PlayerId>)
      reads this, set k | k in players :: players[k]
    {
      forall k :: k in players ==> k in before && Snap(players[k]) == Removed(before[k], id, k in done)
    }

    /** Roster position `i` of `deleteGame`, taking every player from `i` to `i + 1` positions processed. */
    method RemoveStep(ghost before: map<PlayerId, Snapshot>, id: GameId, roster: seq<PlayerId>, i: nat)
      requires Valid() && i < |roster|
      requires RemovedUpTo(before, id, roster[..i])
      modifies Repr
      ensures Valid() && players == old(players) && Repr == old(Repr)
      ensures RemovedUpTo(before, id, roster[..i + 1])
    {
      var pl := roster[i];
      assert roster[..i + 1] == roster[..i] + [pl];
      RemoveFromPlayer(pl, id);
      forall k | k in players
        ensures Snap(players[k]) == Removed(before[k], id, k in roster[..i + 1])
      {
        if k == pl {
          RemovedTwice(before[k], id, k in roster[..i]);
        }
      }
    }

    /** One roster position of `deleteGame`: filter game `id` out of player `pl`'s list, if it has a document. */
    method RemoveFromPlayer(pl: PlayerId, id: GameId)
      requires Valid()
      modifies Repr
      ensures Valid() && players == old(players) && Repr == old(Repr)
      ensures forall k :: k in players ==> Snap(players[k]) == Removed(old(Snap(players[k])), id, k == pl)
    {
      if pl in players {
        players[pl].RemoveGame(id);
      }
    }

    /**
     * `createGame`: reject when a game already has the trimmed name (or the
     * date string `lookupDay` when no name is given); otherwise store a new
     * game under the name as given, untrimmed, or under `storedDay`. The two
     * days are two separate reads of the clock. `newId` is the identity the
     * database assigns.
     */
    method CreateGame(name: string, lookupDay: string, storedDay: string, date: int, isBigGame: bool, buyIn: Option<int>,
                      ids: seq<PlayerId>, newId: GameId) returns (res: Result<GameId, Error>)
      requires newId != "" && newId !in games
      modifies this`games
      ensures res.Failure? <==> NameInUse(old(games), LookupName(name, lookupDay))
      ensures res.Failure? ==> res.error == NameTaken(LookupName(name, lookupDay)) && games == old(games)
      ensures res.Success? ==>
                && res.value == newId
                && games == old(games)[newId := Game(StoredName(name, storedDay), date, ids, [],
                                                     if buyIn.Some? then buyIn.value else DefaultBuyIn, isBigGame)]
    {
      var gameName := LookupName(name, lookupDay);
      if NameInUse(games, gameName) {
        return Failure(NameTaken(gameName));
      }
      var stake := if buyIn.Some? then buyIn.value else DefaultBuyIn;
      games := games[newId := Game(StoredName(name, storedDay), date, ids, [], stake, isBigGame)];
      res := Success(newId);
    }

    /** `Player.findOne({ handle })`: the player holding the handle, if any. */
    method FindByHandle(handle: string) returns (holder: Option<PlayerId>)
      requires Valid()
      ensures holder.None? <==> forall k :: k in players ==> players[k].handle != handle
      ensures holder.Some? ==> holder.value in players && players[holder.value].handle == handle
    {
      if exists k :: k in players && players[k].handle == handle {
        var k :| k in players && players[k].handle == handle;
        holder := Some(k);
      } else {
        holder := None;
      }
    }

    /**
     * `createPlayer`: with no `id` (the empty string) create a player,
     * rejected when any player holds the handle; with an `id`, overwrite that
     * player's profile, rejected when a different player holds the handle.
     * Updating an id with no document changes nothing and answers `None`.
     */
    method CreatePlayer(id: PlayerId, name: string, handle: string, isRegular: bool, isShowInRating: bool,
                        newId: PlayerId) returns (res: Result<Option<PlayerId>, Error>)
      requires Valid()
      requires newId != "" && newId !in players
      modifies this, Repr
      ensures Valid() && fresh(Repr - old(Repr)) && games == old(games)
      ensures id == "" ==> (res.Failure? <==> exists k :: k in old(players) && old(players[k].handle) == handle)
      ensures id != "" ==> (res.Failure? <==> exists k :: k in old(players) && k != id && old(players[k].handle) == handle)
      ensures res.Failure? ==> res.error == HandleTaken
      ensures res.Success? && id == "" ==>
                && res.value == Some(newId)
                && newId in players && players == old(players)[newId := players[newId]] && fresh(players[newId])
                && Snap(players[newId]) == Snapshot(name, handle, isRegular, isShowInRating, [], 0, 0, 0, 0)
      ensures !(res.Success? && id == "") ==> players == old(players)
      ensures res.Success? && id != "" ==> res.value == (if id in players then Some(id) else None)
      ensures forall k :: k in old(players) ==>
                Snap(players[k]) == if res.Success? && id != "" && k == id
                                    then old(Snap(players[k])).(name := name, handle := handle, isRegular := isRegular,
                                                                isShowInRating := isShowInRating)
                                    else old(Snap(players[k]))
    {
      var holder := FindByHandle(handle);
      if HandleRejected(holder, id) {
        return Failure(HandleTaken);
      }
      if id == "" {
        AddPlayer(newId, name, handle, isRegular, isShowInRating);
        return Success(Some(newId));
      }
      if id in players {
        UpdatePlayer(id, name, handle, isRegular, isShowInRating);
        return Success(Some(id));
      }
      return Success(None);
    }

    /** The create branch of `createPlayer`: a new document under `newId`, every statistic at 0. */
    method AddPlayer(newId: PlayerId, name: string, handle: string, isRegular: bool, isShowInRating: bool)
      requires Valid() && newId !in players
      requires forall k :: k in players ==> players[k].handle != handle
      modifies this
      ensures Valid() && fresh(Repr - old(Repr)) && games == old(games)
      ensures newId in players && players == old(players)[newId := players[newId]] && fresh(players[newId])
      ensures Snap(players[newId]) == Snapshot(name, handle, isRegular, isShowInRating, [], 0, 0, 0, 0)
      ensures forall k :: k in old(players) ==> Snap(players[k]) == old(Snap(players[k]))
    {
      var p := new Player(name, handle, isRegular, isShowInRating);
      players := players[newId := p];
      Repr := Repr + {p};
    }

    /** The update branch of `createPlayer`: overwrite the profile of player `id`. */
    method UpdatePlayer(id: PlayerId, name: string, handle: string, isRegular: bool, isShowInRating: bool)
      requires Valid() && id in players
      requires forall k :: k in players && k != id ==> players[k].handle != handle
      modifies Repr
      ensures Valid() && players == old(players) && Repr == old(Repr)
      ensures forall k :: k in players ==>
                Snap(players[k]) == if k == id
                                    then old(Snap(players[k])).(name := name, handle := handle, isRegular := isRegular,
                                                                isShowInRating := isShowInRating)
                                    else old(Snap(players[k]))
    {
      players[id].UpdateProfile(name, handle, isRegular, isShowInRating);
    }

    /**
     * `getPlayerByHandle`: the player's results with their game dates,
     * newest first; fails when no player holds the handle.
     */
    method GetPlayerByHandle(handle: string) returns (res: Result<seq<DatedEntry>, Error>)
      requires Valid()
      ensures res == Failure(PlayerNotFound) <==> forall k :: k in players ==> players[k].handle != handle
      ensures res.Success? <==>
                exists k :: k in players && players[k].handle == handle && Populate(players[k].results, games).Some?
      ensures res.Failure? ==> res.error == PlayerNotFound || res.error == GameMissingForEntry
      ensures res.Success? ==>
                exists k :: k in players && players[k].handle == handle
                  && Populate(players[k].results, games).Some?
                  && multiset(res.value) == multiset(Populate(players[k].results, games).value)
      ensures res.Success? ==> DateOrdered(res.value, true)
    {
      var holder := FindByHandle(handle);
      if holder.None? {
        return Failure(PlayerNotFound);
      }
      var p := players[holder.value];
      var dated := Populate(p.results, games);
      if dated.None? {
        assert forall k :: k in players && players[k].handle == handle ==> k == holder.value;
        return Failure(GameMissingForEntry);
      }
      var a := new DatedEntry[|dated.value|](i requires 0 <= i < |dated.value| => dated.value[i]);
      assert a[..] == dated.value;
      SortByDate(a, true);
      res := Success(a[..]);
    }

    /**
     * `playerHistory`: the player's results sorted by game date, oldest
     * first, and one point per result carrying the running total and the
     * player's name; the last point is the player's balance.
     */
    method PlayerHistory(handle: string) returns (res: Result<seq<Point>, Error>)
      requires Valid()
      ensures res == Failure(PlayerNotFound) <==> forall k :: k in players ==> players[k].handle != handle
      ensures res.Success? <==>
                exists k :: k in players && players[k].handle == handle && Populate(players[k].results, games).Some?
      ensures res.Failure? ==> res.error == PlayerNotFound || res.error == GameMissingForEntry
      ensures res.Success? ==>
                exists k, sorted: seq<DatedEntry> :: k in players && players[k].handle == handle
                  && Populate(players[k].results, games).Some?
                  && HistoryOf(players[k], Populate(players[k].results, games).value, sorted, res.value)
    {
      var holder := FindByHandle(handle);
      if holder.None? {
        return Failure(PlayerNotFound);
      }
      var p := players[holder.value];
      res := PointsOf(p);
      if res.Failure? {
        assert forall k :: k in players && players[k].handle == handle ==> k == holder.value;
      }
    }

    /**
     * `points` is the history series of player `p`: `sorted` is its populated
     * results `dated` in ascending date order, and point `i` carries the sum
     * of the first `i + 1` of them, that result's date and the player's name;
     * the last point is the player's balance.
     */
    ghost predicate HistoryOf(p: Player, dated: seq<DatedEntry>, sorted: seq<DatedEntry>, points: seq<Point>)
      reads p
    {
      && multiset(sorted) == multiset(dated)
      && DateOrdered(sorted, false)
      && |points| == |sorted| == |p.results|
      && (points != [] ==> points[|points| - 1].value == p.balance)
      && forall i :: 0 <= i < |points| ==> points[i] == Point(Sum(Entries(sorted[..i + 1])), sorted[i].date, p.name)
    }

    /** The history series of player document `p`, or the error for a result whose game is gone. */
    method PointsOf(p: Player) returns (res: Result<seq<Point>, Error>)
      requires p.Valid()
      ensures res.Failure? <==> Populate(p.results, games).None?
      ensures res.Failure? ==> res.error == GameMissingForEntry
      ensures res.Success? ==>
                exists sorted: seq<DatedEntry> :: HistoryOf(p, Populate(p.results, games).value, sorted, res.value)
    {
      var dated := Populate(p.results, games);
      if dated.None? {
        return Failure(GameMissingForEntry);
      }
      var a := new DatedEntry[|dated.value|](i requires 0 <= i < |dated.value| => dated.value[i]);
      assert a[..] == dated.value;
      SortByDate(a, false);
      var sorted := a[..];
      var points := History(p.name, sorted);
      assert |points| == |p.results| by {
        assert |sorted| == |dated.value| == |Entries(dated.value)|;
      }
      if points != [] {
        HistoryEndsAtBalance(p.name, sorted, dated.value, points);
      }
      assert HistoryOf(p, dated.value, sorted, points);
      res := Success(points);
    }
  }

  /**
   * The stored name is not trimmed, so a name with white space at either end
   * does not block its trimmed form: after the first create succeeds, the
   * lookup for the trimmed name still finds nothing and a second game with
   * the same trimmed name can be created.
   */
  lemma UntrimmedNameDoesNotBlockTrimmed(games: map<GameId, Game>, name: string, today: string,
                                         date: int, newId: GameId)
    requires Given(name) && Trim(name) != "" && (IsJsSpace(name[0]) || IsJsSpace(name[|name| - 1]))
    requires newId !in games && !NameInUse(games, LookupName(name, today))
    ensures var after := games[newId := Game(StoredName(name, today), date, [], [], DefaultBuyIn, false)];
            && after[newId].name != Trim(name)
            && !NameInUse(after, LookupName(Trim(name), today))
  {
    StoredDiffersFromLookup(name, today, today);
    TrimIdempotent(name);
  }
}

=== FILE: streaks.dfy ===
/**
 * The win and loss streak statistics (`maxSeriesOfWin`, `maxSeriesOfLoose`).
 * Each is a left fold with a counter over the results in stored order: a
 * result of the streak's sign increments the counter and records it as a
 * sample, a result of the opposite sign resets it to 0, and a zero result
 * does nothing. The statistic is the largest sample, or 0 when there is none.
 */
module Streaks {
  import opened Ledger

  /** Which of the two folds: wins count `result > 0`, losses count `result < 0`. */
  datatype Direction = Win | Loss

  /** The result extends a streak of this direction. */
  predicate Extends(d: Direction, r: int)
  {
    if d == Win then r > 0 else r < 0
  }

  /** The result breaks a streak of this direction. */
  predicate Breaks(d: Direction, r: int)
  {
    if d == Win then r < 0 else r > 0
  }

  /** The fold's accumulator after the whole list. */
  function Counter(d: Direction, s: seq<Entry>): nat
  {
    if s == [] then 0
    else
      var c := Counter(d, s[..|s| - 1]);
      var r := s[|s| - 1].result;
      if Extends(d, r) then c + 1 else if Breaks(d, r) then 0 else c
  }

  /** The samples pushed by the fold (`seriesOfWinsArray` / `seriesOfLooseArray`). */
  function Samples(d: Direction, s: seq<Entry>): seq<nat>
  {
    if s == [] then []
    else Samples(d, s[..|s| - 1]) + (if Extends(d, s[|s| - 1].result) then [Counter(d, s)] else [])
  }

  /** The largest element of a non-empty list (`Math.max.apply`). */
  function Max(xs: seq<nat>): (m: nat)
    requires xs != []
    ensures m in xs
    ensures forall k :: 0 <= k < |xs| ==> xs[k] <= m
  {
    if |xs| == 1 then xs[0]
    else
      var m := Max(xs[..|xs| - 1]);
      assert forall k :: 0 <= k < |xs| - 1 ==> xs[k] == xs[..|xs| - 1][k];
      if xs[|xs| - 1] > m then xs[|xs| - 1] else m
  }

  /** `xs.length > 0 ? xs.max() : 0`. */
  function MaxOrZero(xs: seq<nat>): (m: nat)
    ensures xs == [] ==> m == 0
    ensures xs != [] ==> m in xs
    ensures forall k :: 0 <= k < |xs| ==> xs[k] <= m
  {
    if |xs| > 0 then Max(xs) else 0
  }

  /** The stored statistic. */
  function Streak(d: Direction, s: seq<Entry>): nat
  {
    MaxOrZero(Samples(d, s))
  }

  /**
   * The fold as the resolver runs it: a counter and a samples array filled
   * inside a `reduce`.
   */
  method CollectSamples(d: Direction, s: seq<Entry>) returns (samples: seq<nat>)
    ensures samples == Samples(d, s)
  {
    var acc: nat := 0;
    samples := [];
    var i := 0;
    while i < |s|
      invariant 0 <= i <= |s|
      invariant acc == Counter(d, s[..i])
      invariant samples == Samples(d, s[..i])
    {
      assert s[..i + 1][..i] == s[..i];
      var r := s[i].result;
      if Extends(d, r) {
        acc := acc + 1;
        samples := samples + [acc];
      }
      if Breaks(d, r) {
        acc := 0;
      }
      i := i + 1;
    }
    assert s[..|s|] == s;
  }

  /** The number of results that extend a streak of direction `d`. */
  function CountExtends(d: Direction, s: seq<Entry>): nat
  {
    if s == [] then 0
    else CountExtends(d, s[..|s| - 1]) + (if Extends(d, s[|s| - 1].result) then 1 else 0)
  }

  /** No result in `s` breaks a streak of direction `d`. */
  predicate NoBreak(d: Direction, s: seq<Entry>)
  {
    forall k :: 0 <= k < |s| ==> !Breaks(d, s[k].result)
  }

  /** There are no extending results exactly when the count is zero. */
  lemma {:induction false} CountExtendsZero(d: Direction, s: seq<Entry>)
    ensures CountExtends(d, s) == 0 <==> forall k :: 0 <= k < |s| ==> !Extends(d, s[k].result)
  {
    if s != [] {
      var t := s[..|s| - 1];
      CountExtendsZero(d, t);
      assert forall k :: 0 <= k < |t| ==> t[k] == s[k];
    }
  }

  /** One sample per extending result, each between 1 and the number of extending results. */
  lemma {:induction false} SamplesBounds(d: Direction, s: seq<Entry>)
    ensures |Samples(d, s)| == CountExtends(d, s)
    ensures Counter(d, s) <= CountExtends(d, s)
    ensures forall k :: 0 <= k < |Samples(d, s)| ==> 1 <= Samples(d, s)[k] <= CountExtends(d, s)
  {
    if s != [] {
      SamplesBounds(d, s[..|s| - 1]);
    }
  }

  /** The statistic is 0 exactly when no result has the streak's sign. */
  lemma StreakZeroIff(d: Direction, s: seq<Entry>)
    ensures Streak(d, s) == 0 <==> forall k :: 0 <= k < |s| ==> !Extends(d, s[k].result)
  {
    SamplesBounds(d, s);
    CountExtendsZero(d, s);
    if Samples(d, s) != [] {
      assert Samples(d, s)[0] <= Streak(d, s);
    }
  }

  /** The statistic never exceeds the number of results with the streak's sign. */
  lemma StreakAtMostCount(d: Direction, s: seq<Entry>)
    ensures Streak(d, s) <= CountExtends(d, s)
  {
    SamplesBounds(d, s);
  }

  /** The counter is at least the number of extending results in any breaker-free suffix. */
  lemma {:induction false} CounterDominatesSuffix(d: Direction, s: seq<Entry>, i: nat)
    requires i <= |s| && NoBreak(d, s[i..])
    ensures CountExtends(d, s[i..]) <= Counter(d, s)
  {
    if i < |s| {
      var t := s[..|s| - 1];
      assert s[i..][..|s[i..]| - 1] == t[i..];
      assert NoBreak(d, t[i..]) by {
        forall k | 0 <= k < |t[i..]| ensures !Breaks(d, t[i..][k].result) {
          assert t[i..][k] == s[i..][k];
        }
      }
      assert s[i..][|s[i..]| - 1] == s[|s| - 1];
      CounterDominatesSuffix(d, t, i);
    }
  }

  /** The counter is exactly the number of extending results since the last breaking one. */
  lemma {:induction false} CounterAttained(d: Direction, s: seq<Entry>)
    ensures exists i :: 0 <= i <= |s| && NoBreak(d, s[i..]) && CountExtends(d, s[i..]) == Counter(d, s)
  {
    if s == [] {
      assert s[0..] == [];
    } else if Breaks(d, s[|s| - 1].result) {
      assert s[|s|..] == [];
    } else {
      var t := s[..|s| - 1];
      CounterAttained(d, t);
      var i :| 0 <= i <= |t| && NoBreak(d, t[i..]) && CountExtends(d, t[i..]) == Counter(d, t);
      assert s[i..][..|s[i..]| - 1] == t[i..];
      assert s[i..][|s[i..]| - 1] == s[|s| - 1];
      assert NoBreak(d, s[i..]) by {
        forall k | 0 <= k < |s[i..]| ensures !Breaks(d, s[i..][k].result) {
          if k < |t[i..]| {
            assert s[i..][k] == t[i..][k];
          }
        }
      }
    }
  }

  /** The counter after each extending result is one of the samples. */
  lemma {:induction false} CounterIsSample(d: Direction, s: seq<Entry>, p: nat)
    requires p < |s| && Extends(d, s[p].result)
    ensures Counter(d, s[..p + 1]) in Samples(d, s)
  {
    if p == |s| - 1 {
      assert s[..p + 1] == s;
    } else {
      var t := s[..|s| - 1];
      assert t[..p + 1] == s[..p + 1];
      CounterIsSample(d, t, p);
    }
  }

  /** Every sample is the counter right after some extending result. */
  lemma {:induction false} SampleIsCounter(d: Direction, s: seq<Entry>, x: nat)
    requires x in Samples(d, s)
    ensures exists p :: 0 <= p < |s| && Extends(d, s[p].result) && x == Counter(d, s[..p + 1])
  {
    var t := s[..|s| - 1];
    if x in Samples(d, t) {
      SampleIsCounter(d, t, x);
      var p :| 0 <= p < |t| && Extends(d, t[p].result) && x == Counter(d, t[..p + 1]);
      assert t[..p + 1] == s[..p + 1];
    } else {
      assert s[..|s| - 1 + 1] == s;
    }
  }

  /**
   * Reference characterisation, upper half: a stretch of consecutive
   * results with no breaking result holds at most `Streak` extending ones.
   */
  lemma {:induction false} SegmentAtMostStreak(d: Direction, s: seq<Entry>, i: nat, j: nat)
    requires i <= j <= |s| && NoBreak(d, s[i..j])
    ensures CountExtends(d, s[i..j]) <= Streak(d, s)
    decreases j
  {
    if i < j {
      if !Extends(d, s[j - 1].result) {
        assert s[i..j][..j - i - 1] == s[i..j - 1];
        var u := s[i..j - 1];
        assert NoBreak(d, u) by {
          forall k | 0 <= k < |u| ensures !Breaks(d, u[k].result) {
            assert u[k] == s[i..j][k];
          }
        }
        SegmentAtMostStreak(d, s, i, j - 1);
      } else {
        assert s[..j][i..] == s[i..j];
        CounterDominatesSuffix(d, s[..j], i);
        assert s[..(j - 1) + 1] == s[..j];
        CounterIsSample(d, s, j - 1);
        var samples := Samples(d, s);
        var q :| 0 <= q < |samples| && samples[q] == Counter(d, s[..j]);
      }
    }
  }

  /**
   * Reference characterisation, lower half: some stretch with no breaking
   * result holds exactly `Streak` extending results. With the upper half,
   * `Streak` is the largest number of same-signed results in a stretch
   * that no opposite-signed result interrupts, zeros ignored.
   */
  lemma StreakAttained(d: Direction, s: seq<Entry>)
    ensures exists i, j :: 0 <= i <= j <= |s| && NoBreak(d, s[i..j]) && CountExtends(d, s[i..j]) == Streak(d, s)
  {
    var samples := Samples(d, s);
    if samples == [] {
      assert s[0..0] == [];
    } else {
      SampleIsCounter(d, s, Streak(d, s));
      var p :| 0 <= p < |s| && Extends(d, s[p].result) && Streak(d, s) == Counter(d, s[..p + 1]);
      CounterAttained(d, s[..p + 1]);
      var i :| 0 <= i <= p + 1 && NoBreak(d, s[..p + 1][i..]) && CountExtends(d, s[..p + 1][i..]) == Counter(d, s[..p + 1]);
      assert s[..p + 1][i..] == s[i..p + 1];
    }
  }

  /** Negating every result turns the loss fold into the win fold. */
  function Negated(s: seq<Entry>): seq<Entry>
  {
    seq(|s|, k requires 0 <= k < |s| => Entry(s[k].game, -s[k].result))
  }

  /** The loss statistic is the win statistic of the negated results: the two folds are symmetric. */
  lemma {:induction false} LossMirrorsWin(s: seq<Entry>)
    ensures Counter(Loss, s) == Counter(Win, Negated(s))
    ensures Samples(Loss, s) == Samples(Win, Negated(s))
    ensures Streak(Loss, s) == Streak(Win, Negated(s))
  {
    if s != [] {
      assert Negated(s)[..|s| - 1] == Negated(s[..|s| - 1]);
      LossMirrorsWin(s[..|s| - 1]);
    }
  }

  /**
   * Negating twice gives back the results, so the win fold is also the loss
   * fold of the negated results: the two directions swap into each other.
   */
  lemma {:induction false} WinMirrorsLoss(s: seq<Entry>)
    ensures Negated(Negated(s)) == s
    ensures Counter(Win, s) == Counter(Loss, Negated(s))
    ensures Samples(Win, s) == Samples(Loss, Negated(s))
    ensures Streak(Win, s) == Streak(Loss, Negated(s))
  {
    assert Negated(Negated(s)) == s;
    LossMirrorsWin(Negated(s));
  }

  /** One more step of both folds. */
  lemma FoldStep(d: Direction, s: seq<Entry>, e: Entry)
    ensures Counter(d, s + [e]) == if Extends(d, e.result) then Counter(d, s) + 1
                                   else if Breaks(d, e.result) then 0 else Counter(d, s)
    ensures Samples(d, s + [e]) == Samples(d, s) + if Extends(d, e.result) then [Counter(d, s + [e])] else []
  {
    assert (s + [e])[..|s|] == s;
  }

  /** Worked example: a player's results in game order. */
  const MixedResults: seq<Entry> := [Entry("g1", 100), Entry("g2", 50), Entry("g3", -20), Entry("g4", 30),
                                     Entry("g5", 30), Entry("g6", -10), Entry("g7", -10), Entry("g8", -10)]

  /** The longest win run of the example is 2 (`100, 50` and `30, 30`). */
  lemma MixedExampleWins()
    ensures Streak(Win, MixedResults) == 2
  {
    var s0: seq<Entry> := [];
    FoldStep(Win, s0, Entry("g1", 100));
    var s1 := s0 + [Entry("g1", 100)];
    FoldStep(Win, s1, Entry("g2", 50));
    var s2 := s1 + [Entry("g2", 50)];
    FoldStep(Win, s2, Entry("g3", -20));
    var s3 := s2 + [Entry("g3", -20)];
    FoldStep(Win, s3, Entry("g4", 30));
    var s4 := s3 + [Entry("g4", 30)];
    FoldStep(Win, s4, Entry("g5", 30));
    var s5 := s4 + [Entry("g5", 30)];
    FoldStep(Win, s5, Entry("g6", -10));
    var s6 := s5 + [Entry("g6", -10)];
    FoldStep(Win, s6, Entry("g7", -10));
    var s7 := s6 + [Entry("g7", -10)];
    FoldStep(Win, s7, Entry("g8", -10));
    var s8 := s7 + [Entry("g8", -10)];
    assert s8 == MixedResults;
    assert Samples(Win, MixedResults) == [1, 2, 1, 2];
  }

  /** The longest loss run of the example is 3 (the final `-10, -10, -10`). */
  lemma MixedExampleLosses()
    ensures Streak(Loss, MixedResults) == 3
  {
    var s0: seq<Entry> := [];
    FoldStep(Loss, s0, Entry("g1", 100));
    var s1 := s0 + [Entry("g1", 100)];
    FoldStep(Loss, s1, Entry("g2", 50));
    var s2 := s1 + [Entry("g2", 50)];
    FoldStep(Loss, s2, Entry("g3", -20));
    var s3 := s2 + [Entry("g3", -20)];
    FoldStep(Loss, s3, Entry("g4", 30));
    var s4 := s3 + [Entry("g4", 30)];
    FoldStep(Loss, s4, Entry("g5", 30));
    var s5 := s4 + [Entry("g5", 30)];
    FoldStep(Loss, s5, Entry("g6", -10));
    var s6 := s5 + [Entry("g6", -10)];
    FoldStep(Loss, s6, Entry("g7", -10));
    var s7 := s6 + [Entry("g7", -10)];
    FoldStep(Loss, s7, Entry("g8", -10));
    var s8 := s7 + [Entry("g8", -10)];
    assert s8 == MixedResults;
    assert Samples(Loss, MixedResults) == [1, 1, 2, 3];
  }

  /** Worked example: a zero result neither ends nor extends a win streak, so `[10, 0, 10]` gives 2. */
  lemma ZeroExample()
    ensures Streak(Win, [Entry("g1", 10), Entry("g2", 0), Entry("g3", 10)]) == 2
  {
    var s0: seq<Entry> := [];
    FoldStep(Win, s0, Entry("g1", 10));
    var s1 := s0 + [Entry("g1", 10)];
    FoldStep(Win, s1, Entry("g2", 0));
    var s2 := s1 + [Entry("g2", 0)];
    FoldStep(Win, s2, Entry("g3", 10));
    var s3 := s2 + [Entry("g3", 10)];
    assert s3 == [Entry("g1", 10), Entry("g2", 0), Entry("g3", 10)];
    assert Samples(Win, s3) == [1, 2];
  }
}

=== FILE: wrappers.dfy ===
/** Small failure-carrying datatypes shared by the model. */
module Wrappers {

  datatype Option<+T> = None | Some(value: T)

  datatype Result<+R, +E> = Success(value: R) | Failure(error: E)
}
